=== FILE: README.md ===
# WooCommerce order-sync handler, modelled in Dafny

This project models the core of `WoocommerceHandler`, a small Python client
that keeps a local process in step with a WooCommerce shop. The model covers:

- **AppData**: the persisted key/value document holding the order cursor `last_order_time`.
- **Order normalisation** (`process_order`, and the inline copy in the older `get_order`):
  a raw order becomes `{customer: {id, name}, products: [[product_id, quantity], ...]}`.
  This happens inside one shared template dict that every call writes into and returns.
- **Product pagination** (`get_products`): pages 1, 2, ... are read until an empty page
  comes back. The result is either the full records or `(id, stock_quantity, price)`
  summaries.
- **Product mutators** (`update_product`, `update_price`, `update_stock`) and the
  request paths of `get_items` / `get_orders`.
- **One iteration of `listen_orders`** and finite runs of iterations. Each iteration
  fetches the orders after the cursor, skips unlisted statuses, normalises, calls the
  caller's action, and moves the cursor forward on a truthy result.

Raw JSON is the datatype `PyValues.Value` (None, bool, int, float, str, list, dict).
Python's truthiness, subscripting, `.get`, iteration and `str()` are written out over it.
Each exception the code can raise is a `PyError` inside a `Result`. No precondition rules
these cases out. The REST client is a parameter `api` from a request to the decoded JSON
it answers. The caller's action is a parameter too, and it may raise.

The shared order template is explicit state. `Orders.Normalise` returns the template as
the call left it, together with the exception raised, if any. A call that raises part-way
leaves the id written and the product list partly filled, as the Python code does.
The poll fold threads a `HandlerState` record of the store and the template.

Modules and files: `Decimal` (decimal.dfy), `PyValues` (values.dfy),
`Timestamps` (timestamps.dfy), `AppData` (app_data.dfy), `Orders` (orders.dfy),
`Handler` (handler.dfy), `Products` (products.dfy), `Poller` (poller.dfy),
`Legacy` (legacy.dfy, the older `woocommerce-handler.py`).

Facts about the code that the model keeps and a reader may not expect:

- The order name is not reset when billing is falsy. Such an order keeps the name
  the previous normalisation left in the shared template; the name is `''` only on
  a fresh handler (`Orders.NameComesFromLastBilling`, `Orders.NameLeaksAcrossOrders`).
- The sale price is sent only when it is truthy, so `0` and `''` are dropped.
- The summary price is `float(price)`; see Left out.

## Model

| member | source | states |
|---|---|---|
| AppData.Open | woocommerce_handler/woocommerce_handler.py:74-82 | an existing app-data file is used as it is and never overwritten by the defaults; a missing one is initialised with exactly the defaults |
| AppData.Get | woocommerce_handler/woocommerce_handler.py:92-94 | `get(key)` is the stored value, or None for a key the file does not hold |
| AppData.Set | woocommerce_handler/woocommerce_handler.py:96-99 | after `set(key, v)`, `get(key)` answers `v`; every other key reads and exists exactly as before |
| AppData.OpenThenGet | woocommerce_handler/woocommerce_handler.py:73-94 | an existing file is read as it is and a missing one starts from the defaults; `get` answers None for a key in neither; after a `set` the file exists, so a reopened store reads the written value and not the default |
| AppData.FreshStoreCursor | woocommerce_handler/woocommerce_handler.py:38-41 | on first run the cursor is `'2024-01-01T00:00:00'`, which `to_time` reads as midnight on 1 January 2024 |
| Timestamps.Parse | woocommerce_handler/woocommerce_handler.py:191-192 | a string is accepted only if it spells a valid date and time in the zero-padded `YYYY-MM-DDTHH:MM:SS` layout, and it is then exactly the formatted text of the parsed timestamp; every other string is rejected with a ValueError (`strptime` accepts a few more spellings; see Left out) |
| Timestamps.ParseFormat | woocommerce_handler/woocommerce_handler.py:191-192 | every valid timestamp is parsed back from its formatted text (the round trip in the other direction) |
| Timestamps.ToTime | woocommerce_handler/woocommerce_handler.py:191-192 | a non-str raises TypeError; a str gives exactly the result of parsing it, so a success is a valid timestamp whose formatted text is the string |
| Timestamps.BeforeIsStrictTotalOrder | woocommerce_handler/woocommerce_handler.py:216 | the datetime comparison is irreflexive, asymmetric, transitive and total |
| Orders.BillingName | woocommerce_handler/woocommerce_handler.py:122-123 | the name is `first_name + ' ' + last_name` and is defined exactly when billing is a dict holding both as strs |
| Orders.CollectEntries | woocommerce_handler/woocommerce_handler.py:125-130 | one `[product_id, quantity]` per line item, in order; when an item cannot be read, the entries before it and that item's exception |
| Orders.Normalise | woocommerce_handler/woocommerce_handler.py:117-131 | `customer.id` is the raw `customer_id` (None if absent); the name changes only for truthy billing; a missing `line_items` raises; on return, one product entry per raw line item in order; `.get` on a non-dict raises with the template untouched |
| Orders.NameComesFromLastBilling | woocommerce_handler/woocommerce_handler.py:119-123 | after a run of normalisations the name is that of the latest order with truthy billing, or the starting template's name if there was none |
| Orders.NameLeaksAcrossOrders | woocommerce_handler/woocommerce_handler.py:56-61 | an order without billing is named `''` on a fresh handler but inherits the previous order's name after one with billing |
| Handler.GetItems | woocommerce_handler/woocommerce_handler.py:101-109 | the path is `endpoint + '/' + str(id)` for a truthy id and the bare endpoint otherwise; params are passed through |
| Handler.ItemPathsOfIntIds | woocommerce_handler/woocommerce_handler.py:102-105 | id 0 addresses the bare collection like no id; distinct non-zero integer ids address distinct items |
| Handler.GetOrders | woocommerce_handler/woocommerce_handler.py:111-115 | `after` is sent as a parameter only when truthy |
| Handler.GetOrder | woocommerce_handler/woocommerce_handler.py:133-135 | the order read is `orders/<id>` for a truthy id (the bare collection otherwise), without params, and it is normalised into the shared template as by `process_order` |
| Handler.UpdateProduct | woocommerce_handler/woocommerce_handler.py:166-167 | one PUT to `'products/' + str(product_id)` whose body is the given map unchanged |
| Handler.ProductPathsOfIntIds | woocommerce_handler/woocommerce_handler.py:166-167 | distinct integer ids, 0 included, address distinct products |
| Handler.UpdatePrice | woocommerce_handler/woocommerce_handler.py:169-176 | the body has `price` and `regular_price` both `str(price)`, plus `sale_price` unstringified exactly when it is truthy, and no other key |
| Handler.PriceUpdateKeepsPricesMatched | woocommerce_handler/woocommerce_handler.py:169-176 | once applied to a product, base and regular price agree; the sale price changes only for a truthy argument; other fields are untouched |
| Handler.UpdateStock | woocommerce_handler/woocommerce_handler.py:178-181 | the body is exactly `stock_quantity: stock` and `manage_stock: True` |
| Handler.StockUpdateManagesStock | woocommerce_handler/woocommerce_handler.py:178-181 | once applied to a product, the quantity is the argument, stock is managed, and other fields are untouched |
| Products.PageRequest | woocommerce_handler/woocommerce_handler.py:142 | page `n` is a GET of `products` with exactly the params `page: n` and `per_page: 100` |
| Products.PageRequestsDiffer | woocommerce_handler/woocommerce_handler.py:142 | distinct page numbers are distinct requests |
| Products.SelectPrice | woocommerce_handler/woocommerce_handler.py:149-152 | `regular_price` when truthy, else `price`; raises if a field it needs is missing |
| Products.Summarise | woocommerce_handler/woocommerce_handler.py:147-155 | the triple is `(id, stock_quantity, selected price)` and exists exactly when all three fields can be read |
| Products.ListingContents | woocommerce_handler/woocommerce_handler.py:147-157 | full mode keeps every record in order; summary mode gives one summary per record in order, or the exception of the first record that cannot be summarised; success has as many entries as records |
| Products.FullListingSucceeds | woocommerce_handler/woocommerce_handler.py:156-157 | in full mode the listing never raises |
| Products.ListPage | woocommerce_handler/woocommerce_handler.py:147-157 | the loop over one page extends the listing by exactly that page's records |
| Products.GetProducts | woocommerce_handler/woocommerce_handler.py:137-161 | the requests made are the page requests for pages 1, 2, ... in order, 100 per page, up to the first page answered empty, and a short page does not stop it; the result is the listing of the records answered to the requests before the empty one; a summary error is the listing's error through the page that raised (stated as `Products.ListedThrough`) |
| Poller.Cursor | woocommerce_handler/woocommerce_handler.py:183-185 | the `last_order_time` property reads the stored cursor, None before one is stored |
| Poller.CursorSetThenGet | woocommerce_handler/woocommerce_handler.py:183-189 | assigning `last_order_time` makes the property read the new time back and leaves every other stored entry as it was |
| Poller.IsListed | woocommerce_handler/woocommerce_handler.py:204 | reading the status raises KeyError on a dict without one and TypeError on a non-dict; an order is listed exactly when its status is a str among the allowed statuses |
| Poller.Advance | woocommerce_handler/woocommerce_handler.py:214-217 | the cursor becomes the order's `date_created` exactly when that is strictly later, and the store is otherwise unchanged; raises on a missing or malformed date or cursor |
| Poller.Step | woocommerce_handler/woocommerce_handler.py:202-217 | an unlisted order changes nothing; a listed one is normalised and handed to the action; the cursor moves only after a truthy result, only forward, and only to that order's date |
| Poller.Fold | woocommerce_handler/woocommerce_handler.py:202-217 | over a batch, whether or not it raises part-way, the store changes only in its cursor and the cursor only moves strictly later |
| Poller.PollOnce | woocommerce_handler/woocommerce_handler.py:201-217 | one iteration, fetch included, never moves the cursor backwards |
| Poller.Rounds | woocommerce_handler/woocommerce_handler.py:200-220 | any finite run of iterations never moves the cursor backwards |
| Poller.ActionSeesListedOrders | woocommerce_handler/woocommerce_handler.py:202-211 | the action is called on the listed orders in fetch order, each once; a run that raises stops at a prefix of them |
| Poller.UnlistedOrderIsInert | woocommerce_handler/woocommerce_handler.py:203-205 | inserting an unlisted order anywhere in a batch leaves the whole run unchanged |
| Poller.CursorComesFromActedOrder | woocommerce_handler/woocommerce_handler.py:213-217 | the final cursor is the starting one or the date of an order whose action returned truthy |
| Poller.CursorNotBeforeActedOrders | woocommerce_handler/woocommerce_handler.py:213-217 | every order acted on with a truthy result was created no later than the final cursor, also in a run that raised part-way, save the last call of such a run, whose own cursor update may be what raised; so the progress made before a failure is kept, and with the row above the cursor is the maximum |
| Poller.PendingOrderIsNeverReported | woocommerce_handler/woocommerce_handler.py:194-217 | on a fresh handler, a pending order followed by a completed one: only the completed one reaches the action, and the cursor moves to its date |
| Legacy.GetItems | woocommerce-handler.py:42-47 | the path is `endpoint + '/' + str(id)` for a truthy id, the bare endpoint otherwise (so id 0 gives the bare endpoint); no params |
| Legacy.GetOrder | woocommerce-handler.py:52-67 | run statement by statement, the old inline code gives the same template and the same exception as `process_order` on the fetched order, and as the newer `get_order`; so the customer id is the raw `customer_id`, the name is set only from a truthy billing, a missing `line_items` raises, and on return there is one product entry per line item in order |
| Legacy.WriteName | woocommerce-handler.py:57-59 | a falsy billing leaves the template as it is; a truthy one sets the name to `first_name + ' ' + last_name` or raises the exception of the first name that cannot be read, with the name unchanged |
| Legacy.FillProducts | woocommerce-handler.py:61-66 | the product list is reset, then extended by one entry per line item in order, up to the first item that cannot be read, whose exception is raised |
| Legacy.UpdateProduct | woocommerce-handler.py:75-76 | one PUT to `'products/' + str(product_id)` with the given map unchanged |
| Legacy.UpdatePrice | woocommerce-handler.py:78-85 | `price` and `regular_price` are both `str(price)`; `sale_price` is present exactly when truthy; no other keys |
| Legacy.UpdateStock | woocommerce-handler.py:87-90 | the body is exactly `{stock_quantity: stock, manage_stock: True}` |

## Left out

- The `woocommerce.API` client, request signing, transport errors and `.json()` decoding. Requests are values of `Handler.Request`, and responses come from the `api` parameter, or from `listing` for the product listing.
- Reading `config.json` and the constructor's wiring. The `interval` and `sleep` between iterations are not modelled, and neither is the endless `while True`. `Poller.Rounds` models any finite number of iterations.
- AppData file I/O (`open`, `json.load`, `json.dump`, `os.path.exists`). The store is the file's contents. An existing file is assumed to hold a JSON object. Writes by other processes between calls are not modelled: the model assumes a single writer.
- Products.Summarise: keeps the selected price as the raw value instead of `float(price)`. Floating point is not modelled, so the ValueError/TypeError that `float` raises on a non-numeric price is not modelled either.
- Products.GetProducts: each page is a list of records. A page whose JSON is not a list is not modelled. The member also requires that some page is answered empty. Against a listing that never answers an empty page, the source's `while True` loop (woocommerce_handler/woocommerce_handler.py:141) never ends, and that non-terminating case is not modelled.
- Timestamps.Parse: accepts only the zero-padded `DDDD-DD-DDTDD:DD:DD` layout with ASCII digits and an upper-case `T`. `strptime` also accepts other spellings, which the model rejects with a ValueError: single-digit month, day, hour, minute and second fields; a space-padded day (`2024-01- 1T00:00:00`); a lower-case `t`, because the format is matched ignoring case; and non-ASCII decimal digits. The cursor the handler writes back is always a `date_created` string that the shop sent, so only its own spellings reach `to_time`.
- Handler.GetItems: an id that is a truthy list or dict is not allowed, because `str()` of a container (its repr) is not modelled.
- Handler.GetOrder: a truthy order id must be a scalar, because `str()` of a container (its repr) is not modelled.
- Legacy.GetItems: a truthy id must be a scalar, because `str()` of a container (its repr) is not modelled.
- Legacy.GetOrder: a truthy order id must be a scalar, because `str()` of a container (its repr) is not modelled.
- Handler.UpdateProduct: requires a scalar product id, since `str()` of a container is not modelled.
- Handler.UpdatePrice: requires a scalar product id and price, since `str()` of a container is not modelled.
- Handler.UpdateStock: requires a scalar product id, since `str()` of a container is not modelled.
- Legacy.UpdateProduct: requires a scalar product id, since `str()` of a container is not modelled.
- Legacy.UpdatePrice: requires a scalar product id and price, since `str()` of a container is not modelled.
- Legacy.UpdateStock: requires a scalar product id, since `str()` of a container is not modelled.
- A float is carried as the text `str()` gives it. Its truthiness is decided from that text (`0.0` and `-0.0` are falsy).
- The action is a function of the order it receives. An action with hidden state, and aliasing, are not modelled. Aliasing here means that a caller keeping a returned order sees it change on the next normalisation, because every call returns the same dict.
- Handler.ApplyPatch: how the shop applies a PUT is not in the handler's code. The model assumes that the body's fields replace the product's fields of the same name and that all other fields stay as they were. The "other fields are untouched" halves of `Handler.PriceUpdateKeepsPricesMatched` and `Handler.StockUpdateManagesStock` rest on this assumption.
- `self.endpoints[name]` cannot raise, because the endpoint is the two-valued `Handler.Endpoint`. The handler only ever passes those two names.
- The `main()` stub of `woocommerce-handler.py`. The old file's `get_orders`, `get_products` and `get_product` are single GETs built by `Legacy.GetItems`. The newer `get_product` and `get_order` fetches are built by `Handler.GetItems`.

=== FILE: app_data.dfy ===
/** `WoocommerceHandler.AppData`: the persisted key/value document holding the
    order cursor. The backing JSON file is modelled by its contents; a store
    is opened from the file if it exists, or from the defaults otherwise. */
module AppData {
  import opened PyValues
  import Timestamps

  type Store = map<string, Value>

  const LastOrderTimeKey: string := "last_order_time"

  /** The defaults written on first run. */
  const Defaults: Store := map[LastOrderTimeKey := VStr("2024-01-01T00:00:00")]

  /** `AppData(path, defaults)`: an existing file keeps its contents; a missing
      one is initialised with the defaults. */
  function Open(existing: Option<Store>, defaults: Store): (s: Store)
    ensures existing.Some? ==> s == existing.value
    ensures existing.None? ==> s == defaults
  {
    match existing
    case Some(s) => s
    case None => defaults
  }

  /** `AppData.get(key)`: the stored value, or None for a key never set. */
  function Get(s: Store, key: string): (v: Value)
    ensures key in s ==> v == s[key]
    ensures key !in s ==> v == VNone
  {
    DictGet(s, key)
  }

  /** `AppData.set(key, value)`: afterwards `get(key)` answers `value`, and
      every other key answers and exists exactly as before. */
  function Set(s: Store, key: string, value: Value): (s': Store)
    ensures s'.Keys == s.Keys + {key}
    ensures Get(s', key) == value
    ensures forall k :: k != key ==> Get(s', k) == Get(s, k)
    ensures s' - {key} == s - {key}
  {
    s[key := value]
  }

  /** What `get` answers after the store is opened: the file's entry when the
      file exists, the default when it does not, None for a key in neither.
      After a `set` the file exists, so reopening reads the written value back
      and never the default again. */
  lemma OpenThenGet(existing: Option<Store>, defaults: Store, key: string, value: Value)
    ensures existing.Some? ==> Get(Open(existing, defaults), key) == Get(existing.value, key)
    ensures existing.None? ==> Get(Open(existing, defaults), key) == Get(defaults, key)
    ensures key !in Open(existing, defaults) ==> Get(Open(existing, defaults), key) == VNone
    ensures key in Open(existing, defaults) ==> Get(Open(existing, defaults), key) == Open(existing, defaults)[key]
    ensures var written := Set(Open(existing, defaults), key, value);
            Get(Open(Some(written), defaults), key) == value
  {
  }

  /** On first run the cursor reads the default, which `to_time` accepts as
      midnight on 1 January 2024. */
  lemma FreshStoreCursor()
    ensures Get(Open(None, Defaults), LastOrderTimeKey) == VStr("2024-01-01T00:00:00")
    ensures Timestamps.ToTime(Get(Open(None, Defaults), LastOrderTimeKey))
            == Success(Timestamps.Timestamp(2024, 1, 1, 0, 0, 0))
  {
    var t := Timestamps.Timestamp(2024, 1, 1, 0, 0, 0);
    Timestamps.ParseFormat(t);
    Timestamps.NewYear2024Text();
  }
}

=== FILE: decimal.dfy ===
/** Decimal digit strings: the fixed-width fields of a timestamp, and the
    text Python's `str()` gives an integer. */
module Decimal {

  predicate IsDigit(c: char) {
    '0' <= c <= '9'
  }

  predicate AllDigits(s: string) {
    forall i :: 0 <= i < |s| ==> IsDigit(s[i])
  }

  function DigitChar(d: nat): (c: char)
    requires d < 10
    ensures IsDigit(c) && c as int - '0' as int == d
  {
    ('0' as int + d) as char
  }

  function DigitValue(c: char): (d: nat)
    requires IsDigit(c)
    ensures d < 10 && DigitChar(d) == c
  {
    c as int - '0' as int
  }

  function Pow10(n: nat): (p: nat)
    ensures p >= 1
  {
    if n == 0 then 1 else 10 * Pow10(n - 1)
  }

  /** The number a string of decimal digits denotes, most significant digit first. */
  function ValueOf(s: string): (n: nat)
    requires AllDigits(s)
    ensures n < Pow10(|s|)
    decreases |s|
  {
    if |s| == 0 then 0 else 10 * ValueOf(s[..|s| - 1]) + DigitValue(s[|s| - 1])
  }

  /** The last `width` decimal digits of `n`, zero-padded on the left. */
  function Padded(n: nat, width: nat): (s: string)
    ensures |s| == width && AllDigits(s)
  {
    if width == 0 then "" else Padded(n / 10, width - 1) + [DigitChar(n % 10)]
  }

  /** Reading a padded field back gives the number, when it fits the width. */
  lemma {:induction false} ValueOfPadded(n: nat, width: nat)
    requires n < Pow10(width)
    ensures ValueOf(Padded(n, width)) == n
  {
    if width > 0 {
      var s := Padded(n, width);
      assert s[..|s| - 1] == Padded(n / 10, width - 1);
      ValueOfPadded(n / 10, width - 1);
    }
  }

  /** A digit string is the padded rendering of its own value. */
  lemma {:induction false} PaddedValueOf(s: string)
    requires AllDigits(s)
    ensures Padded(ValueOf(s), |s|) == s
  {
    if |s| > 0 {
      var p := s[..|s| - 1];
      PaddedValueOf(p);
      var n := ValueOf(s);
      assert n / 10 == ValueOf(p) && n % 10 == DigitValue(s[|s| - 1]);
      assert s == p + [s[|s| - 1]];
    }
  }

  /** Python's `str()` of a natural number: its decimal digits, no leading zeros. */
  function NatToString(n: nat): (s: string)
    ensures 1 <= |s| && AllDigits(s)
    ensures ValueOf(s) == n
    ensures |s| > 1 ==> s[0] != '0'
  {
    if n < 10 then [DigitChar(n)]
    else
      var prefix := NatToString(n / 10);
      var s := prefix + [DigitChar(n % 10)];
      assert s[..|s| - 1] == prefix;
      s
  }

  /** Python's `str()` of an integer: a minus sign before the digits of a negative one. */
  function IntToString(i: int): (s: string)
    ensures 1 <= |s|
    ensures i < 0 <==> s[0] == '-'
  {
    if i < 0 then "-" + NatToString(-i) else NatToString(i)
  }

  /** Distinct integers print differently, so the printed text identifies the integer. */
  lemma IntToStringInjective(a: int, b: int)
    requires IntToString(a) == IntToString(b)
    ensures a == b
  {
    if a < 0 {
      assert IntToString(a)[1..] == NatToString(-a);
      assert IntToString(b)[1..] == NatToString(-b);
    }
  }
}

=== FILE: handler.dfy ===
/** The requests `WoocommerceHandler` issues through its REST client: item
    paths for GETs, and the product patches sent by PUT. The client itself is
    a parameter: `api` maps a request to the decoded JSON it answers. */
module Handler {
  import opened PyValues
  import Decimal
  import Orders

  /** The two entries of `self.endpoints`. */
  datatype Endpoint = ProductsEndpoint | OrdersEndpoint

  function EndpointPath(e: Endpoint): string {
    match e
    case ProductsEndpoint => "products"
    case OrdersEndpoint => "orders"
  }

  /** A call on the REST client. A GET with empty `params` is the call made
      without query parameters (an empty dict is falsy). */
  datatype Request =
    | Get(path: string, params: map<string, Value>)
    | Put(path: string, body: map<string, Value>)

  /** The resource `get_items` addresses: `endpoint + '/' + str(item_id)` for a
      truthy id, the bare collection otherwise. */
  function ItemPath(e: Endpoint, itemId: Value): (p: string)
    requires Truthy(itemId) ==> IsScalar(itemId)
  {
    if Truthy(itemId) then EndpointPath(e) + "/" + Str(itemId) else EndpointPath(e)
  }

  /** `get_items(name, item_id, params)`. */
  function GetItems(e: Endpoint, itemId: Value, params: map<string, Value>): (r: Request)
    requires Truthy(itemId) ==> IsScalar(itemId)
    ensures r.Get? && r.params == params
    ensures !Truthy(itemId) <==> r.path == EndpointPath(e)
    ensures Truthy(itemId) ==> r.path == EndpointPath(e) + "/" + Str(itemId)
  {
    Get(ItemPath(e, itemId), params)
  }

  /** Integer ids address distinct items, except that id 0 is falsy and so
      addresses the whole collection, exactly as no id does. */
  lemma ItemPathsOfIntIds(e: Endpoint, a: int, b: int)
    ensures ItemPath(e, VInt(0)) == ItemPath(e, VNone) == EndpointPath(e)
    ensures a != 0 && b != 0 && a != b ==> ItemPath(e, VInt(a)) != ItemPath(e, VInt(b))
  {
    if a != 0 && b != 0 && ItemPath(e, VInt(a)) == ItemPath(e, VInt(b)) {
      var prefix := EndpointPath(e) + "/";
      assert ItemPath(e, VInt(a))[|prefix|..] == Decimal.IntToString(a);
      assert ItemPath(e, VInt(b))[|prefix|..] == Decimal.IntToString(b);
      Decimal.IntToStringInjective(a, b);
    }
  }

  /** `get_orders(after)`: the `after` filter is sent only when truthy. */
  function GetOrders(after: Value): (r: Request)
    ensures r.Get? && r.path == "orders"
    ensures Truthy(after) ==> r.params == map["after" := after]
    ensures !Truthy(after) ==> r.params == map[]
  {
    if Truthy(after) then GetItems(OrdersEndpoint, VNone, map["after" := after]) else GetItems(OrdersEndpoint, VNone, map[])
  }

  /** `get_order(order_id)`: fetch one order and normalise it into the template. */
  function GetOrder(t: Orders.OrderTemplate, orderId: Value, api: Request -> Value): (n: Orders.Normalised)
    requires Truthy(orderId) ==> IsScalar(orderId)
    // the order read is `orders/<id>` for a truthy id, the bare collection otherwise, without params
    ensures Truthy(orderId) ==> n == Orders.Normalise(t, api(Get("orders/" + Str(orderId), map[])))
    ensures !Truthy(orderId) ==> n == Orders.Normalise(t, api(Get("orders", map[])))
  {
    assert EndpointPath(OrdersEndpoint) + "/" == "orders/";
    Orders.Normalise(t, api(GetItems(OrdersEndpoint, orderId, map[])))
  }

  /** The path `update_product` writes to; unlike `get_items` it appends the id unconditionally. */
  function ProductPath(productId: Value): string
    requires IsScalar(productId)
  {
    "products/" + Str(productId)
  }

  /** Distinct integer ids, 0 included, address distinct products. */
  lemma ProductPathsOfIntIds(a: int, b: int)
    ensures ProductPath(VInt(0)) == "products/0"
    ensures a != b ==> ProductPath(VInt(a)) != ProductPath(VInt(b))
  {
    if ProductPath(VInt(a)) == ProductPath(VInt(b)) {
      assert ProductPath(VInt(a))[9..] == Decimal.IntToString(a);
      assert ProductPath(VInt(b))[9..] == Decimal.IntToString(b);
      Decimal.IntToStringInjective(a, b);
    }
  }

  /** `update_product(product_id, property_key_value)`: one PUT of the map, unchanged. */
  function UpdateProduct(productId: Value, fields: map<string, Value>): (r: Request)
    requires IsScalar(productId)
    ensures r.Put? && r.body == fields
    ensures |r.path| >= 9 && r.path[..9] == "products/" && r.path[9..] == Str(productId)
  {
    Put(ProductPath(productId), fields)
  }

  /** `update_price(product_id, price, sale_price)`. */
  function UpdatePrice(productId: Value, price: Value, salePrice: Value): (r: Request)
    requires IsScalar(productId) && IsScalar(price)
    ensures r.Put? && r.path == ProductPath(productId)
    ensures r.body.Keys == {"price", "regular_price"} + (if Truthy(salePrice) then {"sale_price"} else {})
    ensures r.body["price"] == VStr(Str(price)) && r.body["regular_price"] == VStr(Str(price))
    ensures Truthy(salePrice) ==> r.body["sale_price"] == salePrice
  {
    var text := VStr(Str(price));
    var fields := map["price" := text, "regular_price" := text];
    UpdateProduct(productId, if Truthy(salePrice) then fields["sale_price" := salePrice] else fields)
  }

  /** `update_stock(product_id, stock)`. */
  function UpdateStock(productId: Value, stock: Value): (r: Request)
    requires IsScalar(productId)
    ensures r.Put? && r.path == ProductPath(productId)
    ensures r.body.Keys == {"stock_quantity", "manage_stock"}
    ensures r.body["stock_quantity"] == stock && r.body["manage_stock"] == VBool(true)
  {
    UpdateProduct(productId, map["stock_quantity" := stock, "manage_stock" := VBool(true)])
  }

  /** A PUT as the remote product applies it: the body's fields replace the record's. */
  function ApplyPatch(record: map<string, Value>, body: map<string, Value>): map<string, Value> {
    record + body
  }

  /** After a price update lands, the base and regular prices agree and read
      `str(price)`; the sale price changes only for a truthy argument; nothing
      else in the product changes. */
  lemma PriceUpdateKeepsPricesMatched(record: map<string, Value>, productId: Value, price: Value, salePrice: Value)
    requires IsScalar(productId) && IsScalar(price)
    ensures var after := ApplyPatch(record, UpdatePrice(productId, price, salePrice).body);
            && after["price"] == after["regular_price"] == VStr(Str(price))
            && ("sale_price" in after <==> "sale_price" in record || Truthy(salePrice))
            && (Truthy(salePrice) ==> after["sale_price"] == salePrice)
            && (!Truthy(salePrice) && "sale_price" in record ==> after["sale_price"] == record["sale_price"])
            && forall k :: k in record && k != "price" && k != "regular_price" && k != "sale_price"
                 ==> k in after && after[k] == record[k]
  {
  }

  /** After a stock update lands, the quantity is the argument, stock is
      managed, and nothing else in the product changes. */
  lemma StockUpdateManagesStock(record: map<string, Value>, productId: Value, stock: Value)
    requires IsScalar(productId)
    ensures var after := ApplyPatch(record, UpdateStock(productId, stock).body);
            && after["stock_quantity"] == stock && after["manage_stock"] == VBool(true)
            && after.Keys == record.Keys + {"stock_quantity", "manage_stock"}
            && forall k :: k in record && k != "stock_quantity" && k != "manage_stock" ==> after[k] == record[k]
  {
  }
}

=== FILE: legacy.dfy ===
/** The older single-file handler, `woocommerce-handler.py`. Its GETs never
    send query parameters, `get_order` normalises inline (the same code as
    the newer `process_order`, on the same kind of shared template), and its
    product mutators are textually the newer ones. */
module Legacy {
  import opened PyValues
  import opened Orders
  import Handler

  /** `get_items(name, item_id)`: no query parameters. */
  function GetItems(e: Handler.Endpoint, itemId: Value): (r: Handler.Request)
    requires Truthy(itemId) ==> IsScalar(itemId)
    ensures r.Get? && r.params == map[]
    ensures !Truthy(itemId) <==> r.path == Handler.EndpointPath(e)
    ensures Truthy(itemId) ==> r.path == Handler.EndpointPath(e) + "/" + Str(itemId)
  {
    Handler.GetItems(e, itemId, map[])
  }

  /** `get_order(order_id)`: fetch the order, then write it into the shared
      template statement by statement, as the old file does inline. The
      result is the newer handler's `get_order`, that is, `process_order` on
      the same fetched order, with the same partial writes when it raises. */
  method GetOrder(t: OrderTemplate, orderId: Value, api: Handler.Request -> Value) returns (n: Normalised)
    requires Truthy(orderId) ==> IsScalar(orderId)
    ensures n == Normalise(t, api(GetItems(Handler.OrdersEndpoint, orderId)))
    ensures n == Handler.GetOrder(t, orderId, api)
    ensures var raw := api(GetItems(Handler.OrdersEndpoint, orderId));
            && (raw.VDict? ==> n.template.customer.id == DictGet(raw.entries, "customer_id"))
            && (raw.VDict? && !Truthy(BillingOf(raw)) ==> n.template.customer.name == t.customer.name)
            && (raw.VDict? && Truthy(BillingOf(raw)) && n.raised.None? ==>
                  && BillingName(BillingOf(raw)).Success?
                  && n.template.customer.name == BillingName(BillingOf(raw)).value)
            && (raw.VDict? && "line_items" !in raw.entries ==> n.raised.Some?)
            && (n.raised.None? ==>
                  && raw.VDict? && Records(LineItemsOf(raw)).Success?
                  && var items := Records(LineItemsOf(raw)).value;
                  && |n.template.products| == |items|
                  && forall i :: 0 <= i < |items| ==> LineEntryOf(items[i]) == Success(n.template.products[i]))
  {
    var raw := api(GetItems(Handler.OrdersEndpoint, orderId));
    if !raw.VDict? {
      n := Normalised(t, Some(AttributeError));
    } else {
      var order := t.(customer := t.customer.(id := DictGet(raw.entries, "customer_id")));
      var named := WriteName(order, DictGet(raw.entries, "billing"));
      if named.raised.Some? {
        n := named;
      } else {
        var lineItems := Records(DictGet(raw.entries, "line_items"));
        if lineItems.Failure? {
          n := Normalised(named.template.(products := []), Some(lineItems.error));
        } else {
          n := FillProducts(named.template, lineItems.value);
        }
      }
    }
  }

  /** `if billing: order['customer']['name'] = billing['first_name'] + ' ' + billing['last_name']`,
      reading the two names in turn. */
  method WriteName(order: OrderTemplate, billing: Value) returns (n: Normalised)
    ensures !Truthy(billing) ==> n == Normalised(order, None)
    ensures Truthy(billing) ==>
              match BillingName(billing)
              case Success(name) => n == Normalised(order.(customer := order.customer.(name := name)), None)
              case Failure(e) => n == Normalised(order, Some(e))
  {
    if !Truthy(billing) {
      return Normalised(order, None);
    }
    var first := GetItem(billing, "first_name");
    if first.Failure? {
      return Normalised(order, Some(first.error));
    }
    if !first.value.VStr? {
      return Normalised(order, Some(TypeError));
    }
    var last := GetItem(billing, "last_name");
    if last.Failure? {
      return Normalised(order, Some(last.error));
    }
    if !last.value.VStr? {
      return Normalised(order, Some(TypeError));
    }
    return Normalised(order.(customer := order.customer.(name := first.value.s + " " + last.value.s)), None);
  }

  /** `order['products'] = []` and the `for line_item in line_items` loop that
      appends `[product_id, quantity]` per item, up to the first item that
      cannot be read. */
  method FillProducts(order: OrderTemplate, items: seq<Value>) returns (n: Normalised)
    ensures n == Normalised(order.(products := CollectEntries(items).entries), CollectEntries(items).raised)
  {
    var filled := order.(products := []);
    var j := 0;
    while j < |items|
      invariant 0 <= j <= |items|
      invariant filled == order.(products := filled.products)
      invariant |filled.products| == j
      invariant forall i :: 0 <= i < j ==> LineEntryOf(items[i]) == Success(filled.products[i])
    {
      var productId := GetItem(items[j], "product_id");
      if productId.Failure? {
        CollectedAt(items, filled.products, productId.error);
        return Normalised(filled, Some(productId.error));
      }
      var quantity := GetItem(items[j], "quantity");
      if quantity.Failure? {
        CollectedAt(items, filled.products, quantity.error);
        return Normalised(filled, Some(quantity.error));
      }
      filled := filled.(products := filled.products + [LineEntry(productId.value, quantity.value)]);
      j := j + 1;
    }
    CollectedAll(items, filled.products);
    return Normalised(filled, None);
  }

  /** What a run of the line-item loop looks like from outside: the entries
      read the leading items in order, and the run either read them all or
      stopped with the exception of the first item it could not read. */
  predicate Describes(items: seq<Value>, c: Collected) {
    && |c.entries| <= |items|
    && (forall i :: 0 <= i < |c.entries| ==> LineEntryOf(items[i]) == Success(c.entries[i]))
    && (c.raised.None? ==> |c.entries| == |items|)
    && (c.raised.Some? ==> |c.entries| < |items| && LineEntryOf(items[|c.entries|]) == Failure(c.raised.value))
  }

  /** Only one run of the loop fits that description. */
  lemma DescribedOnce(items: seq<Value>, a: Collected, b: Collected)
    requires Describes(items, a) && Describes(items, b)
    ensures a == b
  {
  }

  /** The loop that raises at the first unreadable item has collected exactly
      the entries before it. */
  lemma CollectedAt(items: seq<Value>, done: seq<LineEntry>, e: PyError)
    requires |done| < |items|
    requires forall i :: 0 <= i < |done| ==> LineEntryOf(items[i]) == Success(done[i])
    requires LineEntryOf(items[|done|]) == Failure(e)
    ensures CollectEntries(items) == Collected(done, Some(e))
  {
    DescribedOnce(items, CollectEntries(items), Collected(done, Some(e)));
  }

  /** The loop that reads every item has collected one entry per item. */
  lemma CollectedAll(items: seq<Value>, done: seq<LineEntry>)
    requires |done| == |items|
    requires forall i :: 0 <= i < |done| ==> LineEntryOf(items[i]) == Success(done[i])
    ensures CollectEntries(items) == Collected(done, None)
  {
    DescribedOnce(items, CollectEntries(items), Collected(done, None));
  }

  /** `update_product(product_id, property_key_value)`. */
  function UpdateProduct(productId: Value, fields: map<string, Value>): (r: Handler.Request)
    requires IsScalar(productId)
    ensures r.Put? && r.body == fields
    ensures r.path == "products/" + Str(productId)
  {
    Handler.UpdateProduct(productId, fields)
  }

  /** `update_price(product_id, price, sale_price)`. */
  function UpdatePrice(productId: Value, price: Value, salePrice: Value): (r: Handler.Request)
    requires IsScalar(productId) && IsScalar(price)
    ensures r.Put? && r.path == "products/" + Str(productId)
    ensures r.body.Keys == {"price", "regular_price"} + (if Truthy(salePrice) then {"sale_price"} else {})
    ensures r.body["price"] == r.body["regular_price"] == VStr(Str(price))
    ensures Truthy(salePrice) ==> r.body["sale_price"] == salePrice
  {
    Handler.UpdatePrice(productId, price, salePrice)
  }

  /** `update_stock(product_id, stock)`. */
  function UpdateStock(productId: Value, stock: Value): (r: Handler.Request)
    requires IsScalar(productId)
    ensures r.Put? && r.path == "products/" + Str(productId)
    ensures r.body == map["stock_quantity" := stock, "manage_stock" := VBool(true)]
  {
    Handler.UpdateStock(productId, stock)
  }
}

=== FILE: orders.dfy ===
/** `process_order`: the normalisation of a raw order into the handler's
    shared `order` template. The template is a single dict the handler owns;
    every call writes into it and returns it, so a field a call does not
    write keeps whatever the previous call left there. The model threads the
    template through calls explicitly, and reports the template as the call
    left it even when the call raised part-way. */
module Orders {
  import opened PyValues

  /** One `[product_id, quantity]` pair of the normalised order. */
  datatype LineEntry = LineEntry(productId: Value, quantity: Value)

  datatype Customer = Customer(id: Value, name: string)

  /** The shared `{'products': [...], 'customer': {'id': ..., 'name': ...}}` dict. */
  datatype OrderTemplate = OrderTemplate(products: seq<LineEntry>, customer: Customer)

  /** The template as the handler's constructor builds it. */
  const InitialTemplate: OrderTemplate := OrderTemplate([], Customer(VStr(""), ""))

  /** The template after one call, and the exception the call raised, if any. */
  datatype Normalised = Normalised(template: OrderTemplate, raised: Option<PyError>)

  /** `billing['first_name'] + ' ' + billing['last_name']`, evaluated left to right. */
  function BillingName(billing: Value): (r: Result<string>)
    ensures r.Success? <==>
              && billing.VDict?
              && "first_name" in billing.entries && billing.entries["first_name"].VStr?
              && "last_name" in billing.entries && billing.entries["last_name"].VStr?
    ensures r.Success? ==>
              r.value == billing.entries["first_name"].s + " " + billing.entries["last_name"].s
  {
    var first :- GetItem(billing, "first_name");
    if !first.VStr? then Failure(TypeError)
    else
      var last :- GetItem(billing, "last_name");
      if !last.VStr? then Failure(TypeError)
      else Success(first.s + " " + last.s)
  }

  /** `[line_item['product_id'], line_item['quantity']]`. */
  function LineEntryOf(item: Value): (r: Result<LineEntry>)
    ensures r.Success? <==> item.VDict? && "product_id" in item.entries && "quantity" in item.entries
    ensures r.Success? ==> r.value == LineEntry(item.entries["product_id"], item.entries["quantity"])
  {
    var productId :- GetItem(item, "product_id");
    var quantity :- GetItem(item, "quantity");
    Success(LineEntry(productId, quantity))
  }

  /** The entries appended before the loop finished or raised. */
  datatype Collected = Collected(entries: seq<LineEntry>, raised: Option<PyError>)

  /** The `for line_item in line_items` loop: one entry per item, in order,
      up to the first item that cannot be read. */
  function CollectEntries(items: seq<Value>): (c: Collected)
    ensures forall i :: 0 <= i < |c.entries| ==> i < |items| && LineEntryOf(items[i]) == Success(c.entries[i])
    ensures c.raised.None? ==> |c.entries| == |items|
    ensures c.raised.Some? ==>
              |c.entries| < |items| && LineEntryOf(items[|c.entries|]) == Failure(c.raised.value)
    decreases |items|
  {
    if items == [] then Collected([], None)
    else
      match LineEntryOf(items[0])
      case Failure(e) => Collected([], Some(e))
      case Success(entry) =>
        var rest := CollectEntries(items[1..]);
        Collected([entry] + rest.entries, rest.raised)
  }

  /** `order_raw.get('billing')` on a dict. */
  function BillingOf(raw: Value): Value
    requires raw.VDict?
  {
    DictGet(raw.entries, "billing")
  }

  /** `order_raw.get('line_items')` on a dict. */
  function LineItemsOf(raw: Value): Value
    requires raw.VDict?
  {
    DictGet(raw.entries, "line_items")
  }

  /** `process_order(order_raw)` applied to the template `t`. */
  function Normalise(t: OrderTemplate, raw: Value): (n: Normalised)
    // `.get` on a non-dict raises before anything is written
    ensures !raw.VDict? ==> n == Normalised(t, Some(AttributeError))
    // the customer id is the raw `customer_id`, None when absent
    ensures raw.VDict? ==> n.template.customer.id == DictGet(raw.entries, "customer_id")
    // the name is written only from a truthy billing, and only when both names read as strs
    ensures raw.VDict? && !Truthy(BillingOf(raw)) ==> n.template.customer.name == t.customer.name
    ensures raw.VDict? && Truthy(BillingOf(raw)) ==>
              match BillingName(BillingOf(raw))
              case Success(name) => n.template.customer.name == name
              case Failure(e) => n == Normalised(t.(customer := t.customer.(id := n.template.customer.id)), Some(e))
    // a missing `line_items` raises instead of yielding an empty list
    ensures raw.VDict? && "line_items" !in raw.entries ==> n.raised.Some?
    ensures (raw.VDict? && "line_items" !in raw.entries
             && (!Truthy(BillingOf(raw)) || BillingName(BillingOf(raw)).Success?))
            ==> n.raised == Some(TypeError)
    // on return, exactly one entry per raw line item, in the same order
    ensures n.raised.None? ==>
              && raw.VDict?
              && Records(LineItemsOf(raw)).Success?
              && var items := Records(LineItemsOf(raw)).value;
              && |n.template.products| == |items|
              && forall i :: 0 <= i < |items| ==> LineEntryOf(items[i]) == Success(n.template.products[i])
  {
    if !raw.VDict? then Normalised(t, Some(AttributeError))
    else
      var withId := t.(customer := t.customer.(id := DictGet(raw.entries, "customer_id")));
      var billing := BillingOf(raw);
      if Truthy(billing) && BillingName(billing).Failure? then
        Normalised(withId, Some(BillingName(billing).error))
      else
        var named :=
          if Truthy(billing) then withId.(customer := withId.customer.(name := BillingName(billing).value))
          else withId;
        var cleared := named.(products := []);
        match Records(LineItemsOf(raw))
        case Failure(e) => Normalised(cleared, Some(e))
        case Success(items) =>
          var c := CollectEntries(items);
          Normalised(cleared.(products := c.entries), c.raised)
  }

  /** Successive normalisations on one handler, stopping at the first that raises. */
  function NormaliseAll(t: OrderTemplate, raws: seq<Value>): Normalised
    decreases |raws|
  {
    if raws == [] then Normalised(t, None)
    else
      var before := NormaliseAll(t, raws[..|raws| - 1]);
      if before.raised.Some? then before else Normalise(before.template, raws[|raws| - 1])
  }

  /** The billing of the latest raw order whose billing is truthy. */
  function LastBilling(raws: seq<Value>): Option<Value>
    decreases |raws|
  {
    if raws == [] then None
    else
      var last := raws[|raws| - 1];
      if last.VDict? && Truthy(BillingOf(last)) then Some(BillingOf(last))
      else LastBilling(raws[..|raws| - 1])
  }

  /** After a run of successful normalisations the customer name is that of
      the latest order carrying a truthy billing, or the starting template's
      name (`''` on a fresh handler) when none did: the name leaks from one
      order to the next. */
  lemma {:induction false} NameComesFromLastBilling(t: OrderTemplate, raws: seq<Value>)
    requires NormaliseAll(t, raws).raised.None?
    ensures match LastBilling(raws)
            case None => NormaliseAll(t, raws).template.customer.name == t.customer.name
            case Some(b) => BillingName(b).Success? && NormaliseAll(t, raws).template.customer.name == BillingName(b).value
  {
    if raws != [] {
      var init := raws[..|raws| - 1];
      NameComesFromLastBilling(t, init);
    }
  }

  /** An order without billing, normalised on a fresh handler, has the name `''`;
      normalised after an order with billing, it carries that order's name. */
  lemma NameLeaksAcrossOrders(a: Value, b: Value)
    requires a.VDict? && Truthy(BillingOf(a)) && Normalise(InitialTemplate, a).raised.None?
    requires b.VDict? && !Truthy(BillingOf(b))
    ensures Normalise(InitialTemplate, b).template.customer.name == ""
    ensures Normalise(Normalise(InitialTemplate, a).template, b).template.customer.name
            == BillingName(BillingOf(a)).value
  {
  }
}

=== FILE: poller.dfy ===
/** `listen_orders`: the polling loop, modelled one iteration at a time. An
    iteration fetches the orders created after the stored cursor, and for
    each one in fetch order: skips it unless its status is listed, normalises
    it into the shared template, hands it to the caller's action, and, when
    the action's result is truthy and the order was created strictly after
    the cursor, moves the cursor to the order's creation time. The sleep
    between iterations is not modelled. */
module Poller {
  import opened PyValues
  import opened Timestamps
  import AppData
  import opened Orders
  import Handler

  /** The default `status` argument. */
  const DefaultStatuses: seq<string> := ["on-hold", "completed"]

  /** What persists between poll steps: the app-data store and the shared order template. */
  datatype HandlerState = HandlerState(store: AppData.Store, template: OrderTemplate)

  /** A call of the caller's action that returned: the raw order, the
      normalised order it was given, and its result. */
  datatype ActionCall = ActionCall(raw: Value, order: OrderTemplate, result: Value)

  /** The state after a run of poll steps, the action calls made in order,
      and the exception that ended the run, if one did. */
  datatype PollOutcome = PollOutcome(state: HandlerState, calls: seq<ActionCall>, raised: Option<PyError>)

  /** The caller's action, as a function of the order it is given; it may raise. */
  type Action = OrderTemplate -> Result<Value>

  /** The `last_order_time` property: the stored cursor, or None before one is stored. */
  function Cursor(store: AppData.Store): (c: Value)
    ensures AppData.LastOrderTimeKey in store ==> c == store[AppData.LastOrderTimeKey]
    ensures AppData.LastOrderTimeKey !in store ==> c == VNone
  {
    AppData.Get(store, AppData.LastOrderTimeKey)
  }

  /** Assigning `last_order_time` stores the new time under the cursor key:
      the property then reads it back, and no other entry of the store changes. */
  lemma CursorSetThenGet(store: AppData.Store, newTime: Value)
    ensures Cursor(AppData.Set(store, AppData.LastOrderTimeKey, newTime)) == newTime
    ensures AppData.Set(store, AppData.LastOrderTimeKey, newTime) - {AppData.LastOrderTimeKey}
            == store - {AppData.LastOrderTimeKey}
  {
  }

  /** `order_raw['status'] in status`: reading the status raises unless the
      order is a dict holding one, and a status is listed exactly when it is a
      str among the allowed ones (a non-str never equals a str). */
  function IsListed(raw: Value, allowed: seq<string>): (r: Result<bool>)
    ensures r.Success? <==> raw.VDict? && "status" in raw.entries
    ensures r == Success(true) <==>
              raw.VDict? && "status" in raw.entries
              && raw.entries["status"].VStr? && raw.entries["status"].s in allowed
    ensures r.Failure? ==> r.error == (if raw.VDict? then KeyError("status") else TypeError)
  {
    var status :- GetItem(raw, "status");
    Success(status.VStr? && status.s in allowed)
  }

  /** The store changed at most in its cursor, and a changed cursor moved
      strictly later, both readings being valid timestamps. */
  predicate CursorForward(s: AppData.Store, s': AppData.Store) {
    && s' - {AppData.LastOrderTimeKey} == s - {AppData.LastOrderTimeKey}
    && (|| Cursor(s') == Cursor(s)
        || (&& ToTime(Cursor(s)).Success?
            && ToTime(Cursor(s')).Success?
            && Before(ToTime(Cursor(s)).value, ToTime(Cursor(s')).value)))
  }

  lemma CursorForwardTransitive(a: AppData.Store, b: AppData.Store, c: AppData.Store)
    requires CursorForward(a, b) && CursorForward(b, c)
    ensures CursorForward(a, c)
  {
    if Cursor(c) != Cursor(a) && Cursor(b) != Cursor(a) && Cursor(c) != Cursor(b) {
      BeforeIsStrictTotalOrder(ToTime(Cursor(a)).value, ToTime(Cursor(b)).value, ToTime(Cursor(c)).value);
    }
  }

  /** The order's creation time is a valid timestamp no later than the store's cursor. */
  predicate CreatedNotAfterCursor(raw: Value, store: AppData.Store) {
    && GetItem(raw, "date_created").Success?
    && ToTime(GetItem(raw, "date_created").value).Success?
    && ToTime(Cursor(store)).Success?
    && NotAfter(ToTime(GetItem(raw, "date_created").value).value, ToTime(Cursor(store)).value)
  }

  lemma CreatedNotAfterLaterCursor(raw: Value, s: AppData.Store, s': AppData.Store)
    requires CreatedNotAfterCursor(raw, s) && CursorForward(s, s')
    ensures CreatedNotAfterCursor(raw, s')
  {
    if Cursor(s') != Cursor(s) {
      var d := ToTime(GetItem(raw, "date_created").value).value;
      BeforeIsStrictTotalOrder(d, ToTime(Cursor(s)).value, ToTime(Cursor(s')).value);
      BeforeIsStrictTotalOrder(ToTime(Cursor(s')).value, d, ToTime(Cursor(s)).value);
    }
  }

  /** The cursor update after a truthy action result:
      `if to_time(order_time) > to_time(last_order_time): last_order_time = order_time`. */
  function Advance(store: AppData.Store, raw: Value): (r: Result<AppData.Store>)
    ensures r.Success? <==>
              && GetItem(raw, "date_created").Success?
              && ToTime(GetItem(raw, "date_created").value).Success?
              && ToTime(Cursor(store)).Success?
    ensures r.Success? ==> CursorForward(store, r.value) && CreatedNotAfterCursor(raw, r.value)
    ensures r.Success? ==>
              var created := GetItem(raw, "date_created").value;
              if Before(ToTime(Cursor(store)).value, ToTime(created).value) then Cursor(r.value) == created
              else r.value == store
  {
    var created :- GetItem(raw, "date_created");
    var createdTime :- ToTime(created);
    var cursorTime :- ToTime(Cursor(store));
    if Before(cursorTime, createdTime) then Success(AppData.Set(store, AppData.LastOrderTimeKey, created))
    else Success(store)
  }

  /** The loop body for one fetched order. */
  function Step(st: HandlerState, raw: Value, allowed: seq<string>, action: Action): (o: PollOutcome)
    ensures CursorForward(st.store, o.state.store)
    // an unlisted order is skipped entirely
    ensures IsListed(raw, allowed) == Success(false) ==> o == PollOutcome(st, [], None)
    // a listed order is normalised into the template, and the action gets that template
    ensures IsListed(raw, allowed) == Success(true) ==>
              o.state.template == Normalise(st.template, raw).template
    ensures |o.calls| <= 1
    ensures o.calls != [] ==>
              && IsListed(raw, allowed) == Success(true)
              && Normalise(st.template, raw).raised.None?
              && o.calls[0].raw == raw
              && o.calls[0].order == Normalise(st.template, raw).template
              && action(o.calls[0].order) == Success(o.calls[0].result)
    ensures o.raised.None? ==> IsListed(raw, allowed).Success? && (o.calls != [] <==> IsListed(raw, allowed).value)
    // the cursor moves only for a truthy result, to the order's creation time
    ensures o.state.store != st.store ==>
              && o.calls != [] && Truthy(o.calls[0].result)
              && GetItem(raw, "date_created") == Success(Cursor(o.state.store))
    ensures o.raised.None? && o.calls != [] && Truthy(o.calls[0].result) ==>
              CreatedNotAfterCursor(raw, o.state.store)
  {
    match IsListed(raw, allowed)
    case Failure(e) => PollOutcome(st, [], Some(e))
    case Success(listed) =>
      if !listed then PollOutcome(st, [], None)
      else
        var n := Normalise(st.template, raw);
        var normalised := st.(template := n.template);
        if n.raised.Some? then PollOutcome(normalised, [], n.raised)
        else
          match action(n.template)
          case Failure(e) => PollOutcome(normalised, [], Some(e))
          case Success(result) =>
            var calls := [ActionCall(raw, n.template, result)];
            if !Truthy(result) then PollOutcome(normalised, calls, None)
            else
              match Advance(st.store, raw)
              case Failure(e) => PollOutcome(normalised, calls, Some(e))
              case Success(store) => PollOutcome(normalised.(store := store), calls, None)
  }

  /** `for order_raw in orders`: the steps in fetch order, up to the first that raises. */
  function Fold(st: HandlerState, orders: seq<Value>, allowed: seq<string>, action: Action): (o: PollOutcome)
    ensures CursorForward(st.store, o.state.store)
    decreases |orders|
  {
    if orders == [] then PollOutcome(st, [], None)
    else
      var first := Step(st, orders[0], allowed, action);
      if first.raised.Some? then first
      else
        var rest := Fold(first.state, orders[1..], allowed, action);
        CursorForwardTransitive(st.store, first.state.store, rest.state.store);
        PollOutcome(rest.state, first.calls + rest.calls, rest.raised)
  }

  /** One iteration of `listen_orders`: fetch the orders after the cursor
      through `api`, then process them. */
  function PollOnce(st: HandlerState, allowed: seq<string>, api: Handler.Request -> Value, action: Action)
    : (o: PollOutcome)
    ensures CursorForward(st.store, o.state.store)
  {
    match Records(api(Handler.GetOrders(Cursor(st.store))))
    case Failure(e) => PollOutcome(st, [], Some(e))
    case Success(orders) => Fold(st, orders, allowed, action)
  }

  /** Successive iterations, the i-th fetching through `apis[i]`, until one raises. */
  function Rounds(st: HandlerState, apis: seq<Handler.Request -> Value>, allowed: seq<string>, action: Action)
    : (o: PollOutcome)
    ensures CursorForward(st.store, o.state.store)
    decreases |apis|
  {
    if apis == [] then PollOutcome(st, [], None)
    else
      var first := PollOnce(st, allowed, apis[0], action);
      if first.raised.Some? then first
      else
        var rest := Rounds(first.state, apis[1..], allowed, action);
        CursorForwardTransitive(st.store, first.state.store, rest.state.store);
        PollOutcome(rest.state, first.calls + rest.calls, rest.raised)
  }

  /** The raw orders of a sequence of action calls. */
  function Raws(calls: seq<ActionCall>): (raws: seq<Value>)
    ensures |raws| == |calls|
    ensures forall i :: 0 <= i < |calls| ==> raws[i] == calls[i].raw
  {
    seq(|calls|, i requires 0 <= i < |calls| => calls[i].raw)
  }

  /** The fetched orders whose status is listed, in fetch order. */
  function Listed(orders: seq<Value>, allowed: seq<string>): seq<Value>
    decreases |orders|
  {
    if orders == [] then []
    else (if IsListed(orders[0], allowed) == Success(true) then [orders[0]] else []) + Listed(orders[1..], allowed)
  }

  lemma RawsAppend(a: seq<ActionCall>, b: seq<ActionCall>)
    ensures Raws(a + b) == Raws(a) + Raws(b)
  {
  }

  lemma PrefixExtend<T>(p: seq<T>, q: seq<T>, r: seq<T>)
    requires q <= r
    ensures p + q <= p + r
  {
    assert (p + r)[..|p + q|] == p + q;
  }

  /** The calls a single step makes are its order if listed, nothing otherwise. */
  lemma StepCalls(st: HandlerState, raw: Value, allowed: seq<string>, action: Action)
    ensures var first := Step(st, raw, allowed, action);
            var head := if IsListed(raw, allowed) == Success(true) then [raw] else [];
            && Raws(first.calls) <= head
            && (first.raised.None? ==> Raws(first.calls) == head)
  {
  }

  /** The action is called on the listed orders in fetch order, each exactly
      once; a run that raises stops part-way along that sequence. */
  lemma {:induction false} ActionSeesListedOrders(st: HandlerState, orders: seq<Value>, allowed: seq<string>, action: Action)
    ensures var o := Fold(st, orders, allowed, action);
            && Raws(o.calls) <= Listed(orders, allowed)
            && (o.raised.None? ==> Raws(o.calls) == Listed(orders, allowed))
    decreases |orders|
  {
    if orders != [] {
      var first := Step(st, orders[0], allowed, action);
      var head := if IsListed(orders[0], allowed) == Success(true) then [orders[0]] else [];
      var tail := Listed(orders[1..], allowed);
      assert Listed(orders, allowed) == head + tail;
      StepCalls(st, orders[0], allowed, action);
      if first.raised.None? {
        var rest := Fold(first.state, orders[1..], allowed, action);
        ActionSeesListedOrders(first.state, orders[1..], allowed, action);
        RawsAppend(first.calls, rest.calls);
        PrefixExtend(head, Raws(rest.calls), tail);
      } else {
        assert (head + tail)[..|Raws(first.calls)|] == Raws(first.calls);
      }
    }
  }

  /** An unlisted order has no effect anywhere in the batch: the run is the
      same as if it had never been fetched. */
  lemma {:induction false} UnlistedOrderIsInert(
    st: HandlerState, before: seq<Value>, skipped: Value, after: seq<Value>, allowed: seq<string>, action: Action)
    requires IsListed(skipped, allowed) == Success(false)
    ensures Fold(st, before + [skipped] + after, allowed, action) == Fold(st, before + after, allowed, action)
    decreases |before|
  {
    var orders := before + [skipped] + after;
    if before == [] {
      assert orders[0] == skipped && orders[1..] == after;
      assert before + after == after;
      var rest := Fold(st, after, allowed, action);
      assert [] + rest.calls == rest.calls;
    } else {
      assert orders[0] == before[0] && orders[1..] == before[1..] + [skipped] + after;
      assert (before + after)[0] == before[0] && (before + after)[1..] == before[1..] + after;
      var first := Step(st, before[0], allowed, action);
      if first.raised.None? {
        UnlistedOrderIsInert(first.state, before[1..], skipped, after, allowed, action);
      }
    }
  }

  /** The cursor after a run is the starting cursor or the creation time of
      an order whose action returned truthy. */
  lemma {:induction false} CursorComesFromActedOrder(
    st: HandlerState, orders: seq<Value>, allowed: seq<string>, action: Action)
    ensures var o := Fold(st, orders, allowed, action);
            || Cursor(o.state.store) == Cursor(st.store)
            || exists i :: 0 <= i < |o.calls| && Truthy(o.calls[i].result)
                             && GetItem(o.calls[i].raw, "date_created") == Success(Cursor(o.state.store))
    decreases |orders|
  {
    if orders != [] {
      var first := Step(st, orders[0], allowed, action);
      if first.raised.None? {
        CursorComesFromActedOrder(first.state, orders[1..], allowed, action);
        var rest := Fold(first.state, orders[1..], allowed, action);
        CursorWitnessAcrossStep(st.store, first, rest);
      }
    }
  }

  /** A step followed by the rest of the run: a cursor that differs from the
      starting one was set by the step's own truthy call or by one of the rest's. */
  lemma CursorWitnessAcrossStep(start: AppData.Store, first: PollOutcome, rest: PollOutcome)
    requires first.state.store != start ==>
               && first.calls != [] && Truthy(first.calls[0].result)
               && GetItem(first.calls[0].raw, "date_created") == Success(Cursor(first.state.store))
    requires || Cursor(rest.state.store) == Cursor(first.state.store)
             || exists i :: 0 <= i < |rest.calls| && Truthy(rest.calls[i].result)
                              && GetItem(rest.calls[i].raw, "date_created") == Success(Cursor(rest.state.store))
    ensures || Cursor(rest.state.store) == Cursor(start)
            || exists i :: 0 <= i < |first.calls + rest.calls| && Truthy((first.calls + rest.calls)[i].result)
                             && GetItem((first.calls + rest.calls)[i].raw, "date_created") == Success(Cursor(rest.state.store))
  {
    var cursor := Cursor(rest.state.store);
    if cursor != Cursor(start) {
      if cursor == Cursor(first.state.store) {
        ActedInFront(first.calls, rest.calls, 0, cursor);
      } else {
        var i :| 0 <= i < |rest.calls| && Truthy(rest.calls[i].result)
                 && GetItem(rest.calls[i].raw, "date_created") == Success(cursor);
        ActedBehind(first.calls, rest.calls, i, cursor);
      }
    }
  }

  /** A truthy call created at `created` is still one after later calls are appended. */
  lemma ActedInFront(front: seq<ActionCall>, back: seq<ActionCall>, i: int, created: Value)
    requires 0 <= i < |front| && Truthy(front[i].result)
    requires GetItem(front[i].raw, "date_created") == Success(created)
    ensures exists j :: 0 <= j < |front + back| && Truthy((front + back)[j].result)
                        && GetItem((front + back)[j].raw, "date_created") == Success(created)
  {
    assert (front + back)[i] == front[i];
  }

  /** A truthy call created at `created` is still one after earlier calls are prepended. */
  lemma ActedBehind(front: seq<ActionCall>, back: seq<ActionCall>, i: int, created: Value)
    requires 0 <= i < |back| && Truthy(back[i].result)
    requires GetItem(back[i].raw, "date_created") == Success(created)
    ensures exists j :: 0 <= j < |front + back| && Truthy((front + back)[j].result)
                        && GetItem((front + back)[j].raw, "date_created") == Success(created)
  {
    assert (front + back)[|front| + i] == back[i];
  }

  /** Every call whose action returned truthy, save the last call of a run
      that raised, is of an order created no later than the final cursor. */
  predicate ActedNotAfterCursor(o: PollOutcome) {
    forall i :: 0 <= i < |o.calls| && Truthy(o.calls[i].result) && (o.raised.None? || i < |o.calls| - 1) ==>
                  CreatedNotAfterCursor(o.calls[i].raw, o.state.store)
  }

  /** No order whose action returned truthy was created later than the cursor
      after the run, save the last such call of a run that raised, whose own
      cursor update may be what raised. A failure part-way through a batch
      therefore keeps the cursor progress of the orders acted on before it.
      With the lemma above: the cursor is the latest of the starting cursor
      and those orders' creation times. */
  lemma {:induction false} CursorNotBeforeActedOrders(
    st: HandlerState, orders: seq<Value>, allowed: seq<string>, action: Action)
    ensures ActedNotAfterCursor(Fold(st, orders, allowed, action))
    decreases |orders|
  {
    if orders != [] {
      var first := Step(st, orders[0], allowed, action);
      if first.raised.None? {
        CursorNotBeforeActedOrders(first.state, orders[1..], allowed, action);
        var rest := Fold(first.state, orders[1..], allowed, action);
        ActedKeptAcrossStep(first, rest);
      }
    }
  }

  /** A step that did not raise followed by the rest of the run: the step's
      own truthy call, if any, stays at or before the cursor the rest ends
      with, and the rest's calls keep their bound. */
  lemma ActedKeptAcrossStep(first: PollOutcome, rest: PollOutcome)
    requires first.raised.None? && |first.calls| <= 1
    requires first.calls != [] && Truthy(first.calls[0].result) ==>
               CreatedNotAfterCursor(first.calls[0].raw, first.state.store)
    requires CursorForward(first.state.store, rest.state.store)
    requires ActedNotAfterCursor(rest)
    ensures ActedNotAfterCursor(PollOutcome(rest.state, first.calls + rest.calls, rest.raised))
  {
    var ok := raw => CreatedNotAfterCursor(raw, rest.state.store);
    if first.calls != [] && Truthy(first.calls[0].result) {
      CreatedNotAfterLaterCursor(first.calls[0].raw, first.state.store, rest.state.store);
      assert ok(first.calls[0].raw);
    }
    TruthyCallsAppend(first.calls, rest.calls, ok, rest.raised.Some?);
  }

  /** Truthy calls whose raw orders satisfy `ok`, on both sides of an append,
      the last call of `back` being left out when `cut` holds. */
  lemma TruthyCallsAppend(front: seq<ActionCall>, back: seq<ActionCall>, ok: Value -> bool, cut: bool)
    requires forall i :: 0 <= i < |front| && Truthy(front[i].result) ==> ok(front[i].raw)
    requires forall k :: 0 <= k < |back| && Truthy(back[k].result) && (!cut || k < |back| - 1) ==> ok(back[k].raw)
    ensures var calls := front + back;
            forall i :: 0 <= i < |calls| && Truthy(calls[i].result) && (!cut || i < |calls| - 1) ==> ok(calls[i].raw)
  {
    var calls := front + back;
    forall i | 0 <= i < |calls| && Truthy(calls[i].result) && (!cut || i < |calls| - 1)
      ensures ok(calls[i].raw)
    {
      if i >= |front| {
        assert calls[i] == back[i - |front|];
      }
    }
  }

  /** An order created at `created`, with no line items. */
  function ExampleOrder(status: string, created: string): Value {
    VDict(map["status" := VStr(status), "date_created" := VStr(created), "line_items" := VList([])])
  }

  /** An action that accepts every order. */
  function AcceptAll(order: OrderTemplate): Result<Value> {
    Success(VBool(true))
  }

  lemma ExampleStatuses()
    ensures IsListed(ExampleOrder("pending", "2024-02-01T00:00:00"), DefaultStatuses) == Success(false)
    ensures IsListed(ExampleOrder("completed", "2024-02-02T00:00:00"), DefaultStatuses) == Success(true)
  {
    assert GetItem(ExampleOrder("pending", "2024-02-01T00:00:00"), "status") == Success(VStr("pending"));
    assert GetItem(ExampleOrder("completed", "2024-02-02T00:00:00"), "status") == Success(VStr("completed"));
    assert DefaultStatuses[1] == "completed";
    assert "pending" != "on-hold" && "pending" != "completed";
  }

  lemma ExampleCompletedOrderAdvances()
    ensures Advance(AppData.Open(None, AppData.Defaults), ExampleOrder("completed", "2024-02-02T00:00:00"))
            == Success(AppData.Set(AppData.Open(None, AppData.Defaults), AppData.LastOrderTimeKey,
                                   VStr("2024-02-02T00:00:00")))
  {
    var t0, t1 := Timestamp(2024, 1, 1, 0, 0, 0), Timestamp(2024, 2, 2, 0, 0, 0);
    AppData.FreshStoreCursor();
    ExampleCreatedTime();
    assert GetItem(ExampleOrder("completed", "2024-02-02T00:00:00"), "date_created")
           == Success(VStr("2024-02-02T00:00:00"));
    AdvanceMoves(AppData.Open(None, AppData.Defaults), ExampleOrder("completed", "2024-02-02T00:00:00"),
                 VStr("2024-02-02T00:00:00"), t0, t1);
  }

  lemma ExampleCreatedTime()
    ensures ToTime(VStr("2024-02-02T00:00:00")) == Success(Timestamp(2024, 2, 2, 0, 0, 0))
  {
    SecondOfFebruary2024Text();
    ParseFormat(Timestamp(2024, 2, 2, 0, 0, 0));
  }

  /** An order created strictly after the cursor moves the cursor to its creation time. */
  lemma AdvanceMoves(store: AppData.Store, raw: Value, created: Value, cursorTime: Timestamp, createdTime: Timestamp)
    requires GetItem(raw, "date_created") == Success(created)
    requires ToTime(created) == Success(createdTime)
    requires ToTime(Cursor(store)) == Success(cursorTime)
    requires Before(cursorTime, createdTime)
    ensures Advance(store, raw) == Success(AppData.Set(store, AppData.LastOrderTimeKey, created))
  {
  }

  lemma ExampleNormalises()
    ensures Normalise(InitialTemplate, ExampleOrder("completed", "2024-02-02T00:00:00")).raised.None?
  {
    var completed := ExampleOrder("completed", "2024-02-02T00:00:00");
    assert LineItemsOf(completed) == VList([]);
    assert !Truthy(BillingOf(completed));
  }

  lemma ExampleCompletedStep()
    ensures var completed := ExampleOrder("completed", "2024-02-02T00:00:00");
            var st := HandlerState(AppData.Open(None, AppData.Defaults), InitialTemplate);
            var n := Normalise(InitialTemplate, completed);
            Step(st, completed, DefaultStatuses, AcceptAll)
            == PollOutcome(HandlerState(AppData.Set(st.store, AppData.LastOrderTimeKey, VStr("2024-02-02T00:00:00")),
                                        n.template),
                           [ActionCall(completed, n.template, VBool(true))], None)
  {
    var completed := ExampleOrder("completed", "2024-02-02T00:00:00");
    var st := HandlerState(AppData.Open(None, AppData.Defaults), InitialTemplate);
    ExampleNormalises();
    ExampleStatuses();
    ExampleCompletedOrderAdvances();
    assert Truthy(VBool(true));
    ActedStep(st, completed, DefaultStatuses, AcceptAll,
              AppData.Set(st.store, AppData.LastOrderTimeKey, VStr("2024-02-02T00:00:00")), VBool(true));
  }

  /** The step for a listed order that normalises, whose action returns a truthy
      value, and whose cursor update succeeds. */
  lemma ActedStep(st: HandlerState, raw: Value, allowed: seq<string>, action: Action,
                  store: AppData.Store, result: Value)
    requires IsListed(raw, allowed) == Success(true)
    requires Normalise(st.template, raw).raised.None?
    requires action(Normalise(st.template, raw).template) == Success(result) && Truthy(result)
    requires Advance(st.store, raw) == Success(store)
    ensures var n := Normalise(st.template, raw);
            Step(st, raw, allowed, action)
            == PollOutcome(HandlerState(store, n.template), [ActionCall(raw, n.template, result)], None)
  {
  }

  lemma ExamplePendingStep()
    ensures var st := HandlerState(AppData.Open(None, AppData.Defaults), InitialTemplate);
            Step(st, ExampleOrder("pending", "2024-02-01T00:00:00"), DefaultStatuses, AcceptAll) == PollOutcome(st, [], None)
  {
    ExampleStatuses();
  }

  /** A run over two orders is the first step followed by the second. */
  lemma FoldPair(st: HandlerState, a: Value, b: Value, allowed: seq<string>, action: Action)
    ensures var first := Step(st, a, allowed, action);
            var second := Step(first.state, b, allowed, action);
            Fold(st, [a, b], allowed, action)
            == if first.raised.Some? then first else PollOutcome(second.state, first.calls + second.calls, second.raised)
  {
    var first := Step(st, a, allowed, action);
    assert [a, b][0] == a && [a, b][1..] == [b];
    var second := Step(first.state, b, allowed, action);
    assert [b][1..] == [];
    assert Fold(first.state, [b], allowed, action) == PollOutcome(second.state, second.calls + [], second.raised);
  }

  /** A fresh handler polls two orders: one created on 1 February 2024 with
      status `pending`, then one created on 2 February with status
      `completed`. With an action that always returns True, only the second
      reaches the action, and the cursor moves to its creation time. */
  lemma PendingOrderIsNeverReported()
    ensures var pending := ExampleOrder("pending", "2024-02-01T00:00:00");
            var completed := ExampleOrder("completed", "2024-02-02T00:00:00");
            var o := Fold(HandlerState(AppData.Open(None, AppData.Defaults), InitialTemplate), [pending, completed],
                          DefaultStatuses, AcceptAll);
            && o.raised.None?
            && Raws(o.calls) == [completed]
            && Cursor(o.state.store) == VStr("2024-02-02T00:00:00")
  {
    var pending := ExampleOrder("pending", "2024-02-01T00:00:00");
    var completed := ExampleOrder("completed", "2024-02-02T00:00:00");
    var st := HandlerState(AppData.Open(None, AppData.Defaults), InitialTemplate);
    var n := Normalise(InitialTemplate, completed);
    var store := AppData.Set(st.store, AppData.LastOrderTimeKey, VStr("2024-02-02T00:00:00"));
    ExamplePendingStep();
    ExampleCompletedStep();
    SkipThenAct(st, pending, completed, DefaultStatuses, AcceptAll,
                HandlerState(store, n.template), ActionCall(completed, n.template, VBool(true)));
  }

  /** A run over an order that is skipped and then one that is acted on. */
  lemma SkipThenAct(st: HandlerState, a: Value, b: Value, allowed: seq<string>, action: Action,
                    next: HandlerState, call: ActionCall)
    requires Step(st, a, allowed, action) == PollOutcome(st, [], None)
    requires Step(st, b, allowed, action) == PollOutcome(next, [call], None)
    ensures Fold(st, [a, b], allowed, action) == PollOutcome(next, [call], None)
  {
    FoldPair(st, a, b, allowed, action);
  }
}

=== FILE: products.dfy ===
/** `get_products`: walk the paged product listing from page 1 until a page
    comes back empty, collecting either the full records or, in summary
    mode, an `(id, stock_quantity, price)` triple per record. The remote
    listing is a parameter: `listing(q)` is the record list the shop answers
    to the request `q`. */
module Products {
  import opened PyValues
  import Handler

  const PerPage: int := 100

  /** The request for page `page`: `get_items('products', params={'page': page, 'per_page': 100})`. */
  function PageRequest(page: nat): (q: Handler.Request)
    ensures q == Handler.Get("products", map["page" := VInt(page), "per_page" := VInt(100)])
  {
    Handler.GetItems(Handler.ProductsEndpoint, VNone, map["page" := VInt(page), "per_page" := VInt(PerPage)])
  }

  /** Distinct pages are distinct requests, so each page is asked for on its own. */
  lemma PageRequestsDiffer(a: nat, b: nat)
    ensures PageRequest(a) == PageRequest(b) <==> a == b
  {
    if PageRequest(a) == PageRequest(b) {
      assert PageRequest(a).params["page"] == VInt(a);
    }
  }

  /** One element of the result: a full record, or a summary triple. */
  datatype Entry =
    | Record(record: Value)
    | Brief(id: Value, stockQuantity: Value, price: Value)

  /** The summary price: `regular_price` when truthy, `price` otherwise. */
  function SelectPrice(product: Value): (r: Result<Value>)
    ensures r.Success? <==>
              && product.VDict? && "regular_price" in product.entries
              && (Truthy(product.entries["regular_price"]) || "price" in product.entries)
    ensures r.Success? && Truthy(product.entries["regular_price"]) ==> r.value == product.entries["regular_price"]
    ensures r.Success? && !Truthy(product.entries["regular_price"]) ==> r.value == product.entries["price"]
  {
    var regular :- GetItem(product, "regular_price");
    if Truthy(regular) then Success(regular) else GetItem(product, "price")
  }

  /** The summary triple of one product, fields read in the source's order. */
  function Summarise(product: Value): (r: Result<Entry>)
    ensures r.Success? <==> SelectPrice(product).Success? && "id" in product.entries && "stock_quantity" in product.entries
    ensures r.Success? ==>
              r.value == Brief(product.entries["id"], product.entries["stock_quantity"], SelectPrice(product).value)
  {
    var price :- SelectPrice(product);
    var id :- GetItem(product, "id");
    var stock :- GetItem(product, "stock_quantity");
    Success(Brief(id, stock, price))
  }

  /** The result of listing `records` in order: every record, or in summary
      mode every summary, up to the first record whose summary raises. */
  function Listing(records: seq<Value>, summaryOnly: bool): Result<seq<Entry>>
    decreases |records|
  {
    if records == [] then Success([])
    else
      var init, last := records[..|records| - 1], records[|records| - 1];
      var prior :- Listing(init, summaryOnly);
      if summaryOnly then
        var entry :- Summarise(last);
        Success(prior + [entry])
      else
        Success(prior + [Record(last)])
  }

  /** What a listing holds: in full mode every record in order; in summary
      mode one summary per record, in order, or else the exception of the
      first record whose summary raises. Either way, as many entries as records. */
  lemma {:induction false} ListingContents(records: seq<Value>, summaryOnly: bool)
    ensures var r := Listing(records, summaryOnly);
            && (!summaryOnly ==> r.Success?)
            && (r.Success? ==> |r.value| == |records|)
            && (r.Success? && !summaryOnly ==> forall i :: 0 <= i < |records| ==> r.value[i] == Record(records[i]))
            && (r.Success? && summaryOnly ==>
                  forall i :: 0 <= i < |records| ==> Summarise(records[i]) == Success(r.value[i]))
            && (r.Failure? ==>
                  summaryOnly && exists i :: 0 <= i < |records| && Summarise(records[i]) == Failure(r.error)
                                             && forall j :: 0 <= j < i ==> Summarise(records[j]).Success?)
    decreases |records|
  {
    if records != [] {
      var init, last := records[..|records| - 1], records[|records| - 1];
      ListingContents(init, summaryOnly);
      assert records == init + [last];
      var prior := Listing(init, summaryOnly);
      if prior.Failure? {
        var i :| 0 <= i < |init| && Summarise(init[i]) == Failure(prior.error)
                 && forall j :: 0 <= j < i ==> Summarise(init[j]).Success?;
        assert records[i] == init[i];
      } else if summaryOnly && Summarise(last).Failure? {
        assert Summarise(records[|init|]) == Failure(Listing(records, summaryOnly).error);
        assert forall j :: 0 <= j < |init| ==> records[j] == init[j];
      }
    }
  }

  /** In full mode listing never raises. */
  lemma {:induction false} FullListingSucceeds(records: seq<Value>)
    ensures Listing(records, false).Success?
    decreases |records|
  {
    if records != [] {
      FullListingSucceeds(records[..|records| - 1]);
    }
  }

  /** Listing one more record extends the listing by that record's entry. */
  lemma ListingSnoc(records: seq<Value>, last: Value, summaryOnly: bool)
    ensures var prior := Listing(records, summaryOnly);
            var whole := Listing(records + [last], summaryOnly);
            && (prior.Failure? ==> whole == prior)
            && (prior.Success? && !summaryOnly ==> whole == Success(prior.value + [Record(last)]))
            && (prior.Success? && summaryOnly ==>
                  whole == match Summarise(last)
                           case Success(e) => Success(prior.value + [e])
                           case Failure(err) => Failure(err))
  {
    assert (records + [last])[..|records + [last]| - 1] == records;
  }

  /** Once listing raises, listing more records raises the same exception. */
  lemma {:induction false} ListingFailureSticks(records: seq<Value>, more: seq<Value>, summaryOnly: bool)
    requires Listing(records, summaryOnly).Failure?
    ensures Listing(records + more, summaryOnly) == Listing(records, summaryOnly)
    decreases |more|
  {
    if more != [] {
      var init := more[..|more| - 1];
      ListingFailureSticks(records, init, summaryOnly);
      ListingSnoc(records + init, more[|more| - 1], summaryOnly);
      assert records + more == (records + init) + [more[|more| - 1]];
    } else {
      assert records + more == records;
    }
  }

  /** The records answered to the request for page `n`. */
  function Page(listing: Handler.Request -> seq<Value>, n: nat): seq<Value> {
    listing(PageRequest(n))
  }

  /** The records answered to the requests for pages `from` up to but
      excluding `to`, page after page. */
  function Concat(listing: Handler.Request -> seq<Value>, from: nat, to: nat): seq<Value>
    decreases to
  {
    if to <= from then [] else Concat(listing, from, to - 1) + Page(listing, to - 1)
  }

  /** The `for product in data` loop over one page, appending to `products`,
      the listing of the records `done` before it. */
  method ListPage(ghost done: seq<Value>, products: seq<Entry>, data: seq<Value>, summaryOnly: bool)
    returns (r: Result<seq<Entry>>)
    requires Listing(done, summaryOnly) == Success(products)
    ensures r == Listing(done + data, summaryOnly)
  {
    var acc := products;
    var j := 0;
    assert done + data[..j] == done;
    while j < |data|
      invariant 0 <= j <= |data|
      invariant Listing(done + data[..j], summaryOnly) == Success(acc)
    {
      ListingNext(done, data, j, summaryOnly);
      if summaryOnly {
        var entry := Summarise(data[j]);
        if entry.Failure? {
          ListingStopsAt(done, data, j, summaryOnly);
          return Failure(entry.error);
        }
        acc := acc + [entry.value];
      } else {
        acc := acc + [Record(data[j])];
      }
      j := j + 1;
    }
    assert done + data[..|data|] == done + data;
    return Success(acc);
  }

  /** One more record of the page extends the listing so far by its entry. */
  lemma ListingNext(done: seq<Value>, data: seq<Value>, j: nat, summaryOnly: bool)
    requires j < |data|
    ensures var prior := Listing(done + data[..j], summaryOnly);
            var whole := Listing(done + data[..j + 1], summaryOnly);
            && (prior.Failure? ==> whole == prior)
            && (prior.Success? && !summaryOnly ==> whole == Success(prior.value + [Record(data[j])]))
            && (prior.Success? && summaryOnly ==>
                  whole == match Summarise(data[j])
                           case Success(e) => Success(prior.value + [e])
                           case Failure(err) => Failure(err))
  {
    assert done + data[..j + 1] == (done + data[..j]) + [data[j]];
    ListingSnoc(done + data[..j], data[j], summaryOnly);
  }

  /** A record of the page whose summary raises ends the whole listing with that exception. */
  lemma ListingStopsAt(done: seq<Value>, data: seq<Value>, j: nat, summaryOnly: bool)
    requires j < |data| && summaryOnly
    requires Listing(done + data[..j], summaryOnly).Success? && Summarise(data[j]).Failure?
    ensures Listing(done + data, summaryOnly) == Failure(Summarise(data[j]).error)
  {
    var upTo := done + data[..j + 1];
    ListingNext(done, data, j, summaryOnly);
    ListingFailureSticks(upTo, data[j + 1..], summaryOnly);
    assert upTo + data[j + 1..] == done + data;
  }

  /** `get_products(id_stock_price_only)`. It requests pages 1, 2, ... with
      100 products per page and stops at the first empty page, a short page
      notwithstanding; `requests` are the requests made, in order. */
  method GetProducts(listing: Handler.Request -> seq<Value>, summaryOnly: bool)
    returns (r: Result<seq<Entry>>, requests: seq<Handler.Request>)
    requires exists n: nat :: 1 <= n && listing(PageRequest(n)) == []
    ensures ListedThrough(listing, summaryOnly, r, requests)
  {
    ghost var stop: nat :| 1 <= stop && listing(PageRequest(stop)) == [];
    assert Page(listing, stop) == [];
    var products: seq<Entry> := [];
    var page: nat := 1;
    while true
      invariant 1 <= page <= stop
      invariant forall k :: 1 <= k < page ==> Page(listing, k) != []
      invariant Listing(Concat(listing, 1, page), summaryOnly) == Success(products)
      decreases stop - page
    {
      var data := listing(PageRequest(page));
      assert data == Page(listing, page);
      if data == [] {
        EmptyPageEnds(listing, summaryOnly, page, products);
        return Success(products), PagesUpTo(page);
      }
      var listed := ListPage(Concat(listing, 1, page), products, data, summaryOnly);
      if listed.Failure? {
        FailedPageEnds(listing, summaryOnly, page, listed);
        return listed, PagesUpTo(page);
      }
      NextPage(listing, summaryOnly, page, stop, listed);
      products := listed.value;
      page := page + 1;
    }
  }

  /** The outcome `GetProducts` promises: the requests are those of pages 1, 2,
      ... in order, every page but the last answered non-empty, and the result
      is the listing of the pages before an empty last page, or the error
      that listing the last page raised. */
  ghost predicate ListedThrough(
    listing: Handler.Request -> seq<Value>, summaryOnly: bool, r: Result<seq<Entry>>, requests: seq<Handler.Request>)
  {
    && 1 <= |requests|
    && (forall i :: 0 <= i < |requests| ==> requests[i] == PageRequest(i + 1))
    && (forall i :: 0 <= i < |requests| - 1 ==> listing(requests[i]) != [])
    && (r.Success? ==>
          && listing(requests[|requests| - 1]) == []
          && r == Listing(Concat(listing, 1, |requests|), summaryOnly))
    && (r.Failure? ==>
          && summaryOnly && listing(requests[|requests| - 1]) != []
          && r == Listing(Concat(listing, 1, |requests| + 1), summaryOnly))
  }

  /** An empty page `page` after non-empty pages ends the listing with what was gathered. */
  lemma EmptyPageEnds(listing: Handler.Request -> seq<Value>, summaryOnly: bool, page: nat, products: seq<Entry>)
    requires 1 <= page
    requires forall k :: 1 <= k < page ==> Page(listing, k) != []
    requires Listing(Concat(listing, 1, page), summaryOnly) == Success(products)
    requires Page(listing, page) == []
    ensures ListedThrough(listing, summaryOnly, Success(products), PagesUpTo(page))
  {
    PagesUpToListed(listing, page);
  }

  /** A page `page` whose listing raises ends the listing with that exception. */
  lemma FailedPageEnds(listing: Handler.Request -> seq<Value>, summaryOnly: bool, page: nat, listed: Result<seq<Entry>>)
    requires 1 <= page
    requires forall k :: 1 <= k < page ==> Page(listing, k) != []
    requires Page(listing, page) != []
    requires listed == Listing(Concat(listing, 1, page) + Page(listing, page), summaryOnly) && listed.Failure?
    ensures ListedThrough(listing, summaryOnly, listed, PagesUpTo(page))
  {
    ConcatNext(listing, page);
    if !summaryOnly {
      FullListingSucceeds(Concat(listing, 1, page + 1));
    }
    PagesUpToListed(listing, page);
  }

  /** A non-empty page `page` listed without error: the next page is still
      at most the empty page `stop`, and the listing so far takes in page `page`. */
  lemma NextPage(listing: Handler.Request -> seq<Value>, summaryOnly: bool, page: nat, stop: nat, listed: Result<seq<Entry>>)
    requires 1 <= page <= stop && Page(listing, stop) == []
    requires forall k :: 1 <= k < page ==> Page(listing, k) != []
    requires Page(listing, page) != []
    requires listed == Listing(Concat(listing, 1, page) + Page(listing, page), summaryOnly)
    ensures page + 1 <= stop
    ensures forall k :: 1 <= k < page + 1 ==> Page(listing, k) != []
    ensures Listing(Concat(listing, 1, page + 1), summaryOnly) == listed
  {
    ConcatNext(listing, page);
  }

  /** Pages `from` to `to` inclusive are those up to `to` followed by page `to`. */
  lemma ConcatNext(listing: Handler.Request -> seq<Value>, to: nat)
    requires 1 <= to
    ensures Concat(listing, 1, to + 1) == Concat(listing, 1, to) + Page(listing, to)
  {
  }

  /** The requests up to page `last` asked for the pages `Page` reads. */
  lemma PagesUpToListed(listing: Handler.Request -> seq<Value>, last: nat)
    requires forall k :: 1 <= k < last ==> Page(listing, k) != []
    ensures forall i :: 0 <= i < last - 1 ==> listing(PagesUpTo(last)[i]) != []
    ensures 1 <= last ==> listing(PagesUpTo(last)[last - 1]) == Page(listing, last)
  {
    var qs := PagesUpTo(last);
    forall i | 0 <= i < last - 1
      ensures listing(qs[i]) != []
    {
      assert qs[i] == PageRequest(i + 1);
      assert Page(listing, i + 1) != [];
    }
  }

  /** The requests for pages 1 up to and including `last`, in order. */
  function PagesUpTo(last: nat): (qs: seq<Handler.Request>)
    ensures |qs| == last
    ensures forall i :: 0 <= i < last ==> qs[i] == PageRequest(i + 1)
  {
    seq(last, i requires 0 <= i < last => PageRequest(i + 1))
  }
}

=== FILE: timestamps.dfy ===
/** The `to_time` conversion: a timestamp string in the format
    `%Y-%m-%dT%H:%M:%S`, parsed into a calendar tuple that Python's
    `datetime` compares field by field. */
module Timestamps {
  import opened PyValues
  import opened Decimal

  datatype Timestamp = Timestamp(year: nat, month: nat, day: nat, hour: nat, minute: nat, second: nat)

  predicate IsLeapYear(y: nat) {
    y % 4 == 0 && (y % 100 != 0 || y % 400 == 0)
  }

  function DaysInMonth(y: nat, m: nat): nat
    requires 1 <= m <= 12
  {
    if m == 2 then (if IsLeapYear(y) then 29 else 28)
    else if m == 4 || m == 6 || m == 9 || m == 11 then 30
    else 31
  }

  /** The field ranges `datetime` accepts. */
  predicate Valid(t: Timestamp) {
    && 1 <= t.year <= 9999
    && 1 <= t.month <= 12
    && 1 <= t.day <= DaysInMonth(t.year, t.month)
    && t.hour < 24
    && t.minute < 60
    && t.second < 60
  }

  /** `a < b` on datetimes: lexicographic on (year, month, day, hour, minute, second). */
  predicate Before(a: Timestamp, b: Timestamp) {
    || a.year < b.year
    || (a.year == b.year && a.month < b.month)
    || (a.year == b.year && a.month == b.month && a.day < b.day)
    || (a.year == b.year && a.month == b.month && a.day == b.day && a.hour < b.hour)
    || (a.year == b.year && a.month == b.month && a.day == b.day && a.hour == b.hour && a.minute < b.minute)
    || (a.year == b.year && a.month == b.month && a.day == b.day && a.hour == b.hour && a.minute == b.minute
        && a.second < b.second)
  }

  /** `a <= b` on datetimes. */
  predicate NotAfter(a: Timestamp, b: Timestamp) {
    !Before(b, a)
  }

  /** `Before` is a strict total order, which the cursor's monotonicity relies on. */
  lemma BeforeIsStrictTotalOrder(a: Timestamp, b: Timestamp, c: Timestamp)
    ensures !Before(a, a)
    ensures Before(a, b) ==> !Before(b, a)
    ensures Before(a, b) && Before(b, c) ==> Before(a, c)
    ensures a == b || Before(a, b) || Before(b, a)
  {
  }

  /** The timestamp written in the format, zero-padded. */
  function Format(t: Timestamp): string {
    DatePart(t) + "T" + ClockPart(t)
  }

  function DatePart(t: Timestamp): string {
    Padded(t.year, 4) + "-" + Padded(t.month, 2) + "-" + Padded(t.day, 2)
  }

  function ClockPart(t: Timestamp): string {
    Padded(t.hour, 2) + ":" + Padded(t.minute, 2) + ":" + Padded(t.second, 2)
  }

  /** The string has the layout `DDDD-DD-DDTDD:DD:DD`. */
  predicate Shaped(s: string) {
    && |s| == 19
    && s[4] == '-' && s[7] == '-' && s[10] == 'T' && s[13] == ':' && s[16] == ':'
    && AllDigits(s[0..4]) && AllDigits(s[5..7]) && AllDigits(s[8..10])
    && AllDigits(s[11..13]) && AllDigits(s[14..16]) && AllDigits(s[17..19])
  }

  /** The fields a shaped string spells, before range checks. */
  function Fields(s: string): Timestamp
    requires Shaped(s)
  {
    Timestamp(ValueOf(s[0..4]), ValueOf(s[5..7]), ValueOf(s[8..10]),
              ValueOf(s[11..13]), ValueOf(s[14..16]), ValueOf(s[17..19]))
  }

  /** `datetime.strptime(s, '%Y-%m-%dT%H:%M:%S')`: a ValueError unless the string
      has the layout and names a real date and time of day. */
  function Parse(s: string): (r: Result<Timestamp>)
    ensures r.Success? ==> Valid(r.value) && Format(r.value) == s
    ensures r.Failure? ==> r.error == ValueError
  {
    if !Shaped(s) then Failure(ValueError)
    else
      var t := Fields(s);
      if Valid(t) then FormatFields(s); Success(t) else Failure(ValueError)
  }

  /** A shaped string is the formatted rendering of its own fields. */
  lemma FormatFields(s: string)
    requires Shaped(s)
    ensures Format(Fields(s)) == s
  {
    JoinedAt(s, 10, 'T');
    assert s[..10] == s[0..10] && s[11..] == s[11..19];
    DateFields(s);
    ClockFields(s);
  }

  /** The date half of a shaped string is the rendering of its date fields. */
  lemma DateFields(s: string)
    requires Shaped(s)
    ensures DatePart(Fields(s)) == s[0..10]
  {
    var date := s[0..10];
    assert date[0..4] == s[0..4] && date[5..7] == s[5..7] && date[8..10] == s[8..10];
    assert date[4] == s[4] && date[7] == s[7];
    JoinedDate(date);
    PaddedValueOf(s[0..4]);
    PaddedValueOf(s[5..7]);
    PaddedValueOf(s[8..10]);
  }

  /** The clock half of a shaped string is the rendering of its time fields. */
  lemma ClockFields(s: string)
    requires Shaped(s)
    ensures ClockPart(Fields(s)) == s[11..19]
  {
    var clock := s[11..19];
    assert clock[0..2] == s[11..13] && clock[3..5] == s[14..16] && clock[6..8] == s[17..19];
    assert clock[2] == s[13] && clock[5] == s[16];
    JoinedClock(clock);
    PaddedValueOf(s[11..13]);
    PaddedValueOf(s[14..16]);
    PaddedValueOf(s[17..19]);
  }

  /** A string is its part before position `i`, the separator there, and the rest. */
  lemma JoinedAt(s: string, i: nat, sep: char)
    requires i < |s| && s[i] == sep
    ensures s == s[..i] + [sep] + s[i + 1..]
  {
  }

  /** `DDDD-DD-DD` is its three groups joined by dashes. */
  lemma JoinedDate(d: string)
    requires |d| == 10 && d[4] == '-' && d[7] == '-'
    ensures d == d[0..4] + "-" + d[5..7] + "-" + d[8..10]
  {
    JoinedAt(d, 4, '-');
    JoinedAt(d[5..], 2, '-');
    assert d[5..][..2] == d[5..7] && d[5..][3..] == d[8..10];
  }

  /** `DD:DD:DD` is its three groups joined by colons. */
  lemma JoinedClock(c: string)
    requires |c| == 8 && c[2] == ':' && c[5] == ':'
    ensures c == c[0..2] + ":" + c[3..5] + ":" + c[6..8]
  {
    JoinedAt(c, 2, ':');
    JoinedAt(c[3..], 2, ':');
    assert c[3..][..2] == c[3..5] && c[3..][3..] == c[6..8];
  }

  /** Every valid timestamp is accepted back from its formatted text. */
  lemma ParseFormat(t: Timestamp)
    requires Valid(t)
    ensures Parse(Format(t)) == Success(t)
  {
    var s := Format(t);
    FormatSlices(t);
    assert Pow10(4) == 10000 && Pow10(2) == 100;
    ValueOfPadded(t.year, 4);
    ValueOfPadded(t.month, 2);
    ValueOfPadded(t.day, 2);
    ValueOfPadded(t.hour, 2);
    ValueOfPadded(t.minute, 2);
    ValueOfPadded(t.second, 2);
    assert Shaped(s);
    assert Fields(s) == t;
  }

  /** Where each field and separator sits in the formatted text. */
  lemma FormatSlices(t: Timestamp)
    ensures |Format(t)| == 19
    ensures Format(t)[4] == '-' && Format(t)[7] == '-' && Format(t)[10] == 'T'
    ensures Format(t)[13] == ':' && Format(t)[16] == ':'
    ensures Format(t)[0..4] == Padded(t.year, 4)
    ensures Format(t)[5..7] == Padded(t.month, 2)
    ensures Format(t)[8..10] == Padded(t.day, 2)
    ensures Format(t)[11..13] == Padded(t.hour, 2)
    ensures Format(t)[14..16] == Padded(t.minute, 2)
    ensures Format(t)[17..19] == Padded(t.second, 2)
  {
    var s, date, clock := Format(t), DatePart(t), ClockPart(t);
    assert s[0..10] == date && s[11..19] == clock;
    assert date[0..4] == Padded(t.year, 4);
    assert date[5..7] == Padded(t.month, 2);
    assert date[8..10] == Padded(t.day, 2);
    assert clock[0..2] == Padded(t.hour, 2);
    assert clock[3..5] == Padded(t.minute, 2);
    assert clock[6..8] == Padded(t.second, 2);
    assert s[0..4] == date[0..4] && s[5..7] == date[5..7] && s[8..10] == date[8..10];
    assert s[11..13] == clock[0..2] && s[14..16] == clock[3..5] && s[17..19] == clock[6..8];
  }

  /** `to_time(v)`: strptime raises a TypeError on anything but a str. */
  function ToTime(v: Value): (r: Result<Timestamp>)
    ensures r.Success? <==> v.VStr? && Parse(v.s).Success?
    ensures r.Success? ==> Valid(r.value) && v == VStr(Format(r.value))
    ensures !v.VStr? ==> r == Failure(TypeError)
    ensures v.VStr? ==> r == Parse(v.s)
  {
    if v.VStr? then Parse(v.s) else Failure(TypeError)
  }

  lemma PaddedYear2024()
    ensures Padded(2024, 4) == "2024"
  {
    assert DigitChar(2) == '2' && DigitChar(0) == '0' && DigitChar(4) == '4';
    assert Padded(2, 1) == Padded(0, 0) + [DigitChar(2)] == "2";
    assert Padded(20, 2) == Padded(2, 1) + [DigitChar(0)] == "20";
    assert Padded(202, 3) == Padded(20, 2) + [DigitChar(2)] == "202";
    assert Padded(2024, 4) == Padded(202, 3) + [DigitChar(4)];
  }

  lemma PaddedSmall()
    ensures Padded(0, 2) == "00" && Padded(1, 2) == "01" && Padded(2, 2) == "02"
  {
    assert DigitChar(0) == '0' && DigitChar(1) == '1' && DigitChar(2) == '2';
    assert Padded(0, 1) == Padded(0, 0) + [DigitChar(0)] == "0";
    assert Padded(0, 2) == Padded(0, 1) + [DigitChar(0)];
    assert Padded(1, 2) == Padded(0, 1) + [DigitChar(1)];
    assert Padded(2, 2) == Padded(0, 1) + [DigitChar(2)];
  }

  lemma NewYear2024Text()
    ensures Format(Timestamp(2024, 1, 1, 0, 0, 0)) == "2024-01-01T00:00:00"
  {
    PaddedYear2024();
    PaddedSmall();
    assert DatePart(Timestamp(2024, 1, 1, 0, 0, 0)) == "2024-01-01";
    assert ClockPart(Timestamp(2024, 1, 1, 0, 0, 0)) == "00:00:00";
  }

  lemma SecondOfFebruary2024Text()
    ensures Format(Timestamp(2024, 2, 2, 0, 0, 0)) == "2024-02-02T00:00:00"
  {
    PaddedYear2024();
    PaddedSmall();
    assert DatePart(Timestamp(2024, 2, 2, 0, 0, 0)) == "2024-02-02";
    assert ClockPart(Timestamp(2024, 2, 2, 0, 0, 0)) == "00:00:00";
  }
}

=== FILE: values.dfy ===
/** Python values as the JSON decoder hands them to the handler, the
    exceptions the handler's code can raise on them, and the few Python
    operations it applies to them (truthiness, subscript, `.get`, iteration,
    `str()`). */
module PyValues {
  import Decimal

  datatype Value =
    | VNone
    | VBool(b: bool)
    | VInt(i: int)
    | VFloat(repr: string)  // a float, carried as the text `str()` gives it
    | VStr(s: string)
    | VList(items: seq<Value>)
    | VDict(entries: map<string, Value>)

  datatype PyError =
    | KeyError(key: string)  // a dict subscripted by a key it lacks
    | TypeError              // an operation applied to a value of the wrong type
    | AttributeError         // `.get` called on something that is not a dict
    | ValueError             // a timestamp string that does not match its format

  datatype Option<+T> = None | Some(value: T)

  /** What a Python expression does: return a value or raise. */
  datatype Result<+T> = Success(value: T) | Failure(error: PyError) {
    predicate IsFailure() {
      Failure?
    }

    function PropagateFailure<U>(): Result<U>
      requires Failure?
    {
      Failure(error)
    }

    function Extract(): T
      requires Success?
    {
      value
    }
  }

  /** Python's `bool(v)`: false exactly for None, False, zero and empty containers. */
  predicate Truthy(v: Value) {
    match v
    case VNone => false
    case VBool(b) => b
    case VInt(i) => i != 0
    case VFloat(r) => r != "0.0" && r != "-0.0"
    case VStr(s) => s != ""
    case VList(xs) => xs != []
    case VDict(m) => m != map[]
  }

  /** `d.get(key)` on a dict: the value, or None when the key is absent. */
  function DictGet(m: map<string, Value>, key: string): Value {
    if key in m then m[key] else VNone
  }

  /** `v[key]` with a string key: only a dict holding the key answers. */
  function GetItem(v: Value, key: string): (r: Result<Value>)
    ensures r.Success? <==> v.VDict? && key in v.entries
    ensures r.Success? ==> r.value == v.entries[key]
  {
    match v
    case VDict(m) => if key in m then Success(m[key]) else Failure(KeyError(key))
    case _ => Failure(TypeError)
  }

  /** The elements a `for` loop visits when each of them is then subscripted
      with a string key. A list yields its items; a non-empty str or dict
      yields strs, the first of which fails its subscript, so the loop raises
      before doing anything; empty ones yield nothing; the other values are
      not iterable. */
  function Records(v: Value): (r: Result<seq<Value>>)
    ensures r.Success? <==> v.VList? || v == VStr("") || v == VDict(map[])
    ensures v.VList? ==> r == Success(v.items)
    ensures r.Failure? ==> r.error == TypeError
  {
    match v
    case VList(xs) => Success(xs)
    case VStr(s) => if s == "" then Success([]) else Failure(TypeError)
    case VDict(m) => if m == map[] then Success([]) else Failure(TypeError)
    case _ => Failure(TypeError)
  }

  /** The values whose `str()` the model defines. */
  predicate IsScalar(v: Value) {
    !v.VList? && !v.VDict?
  }

  /** Python's `str(v)` on a scalar value. */
  function Str(v: Value): string
    requires IsScalar(v)
  {
    match v
    case VNone => "None"
    case VBool(b) => if b then "True" else "False"
    case VInt(i) => Decimal.IntToString(i)
    case VFloat(r) => r
    case VStr(s) => s
  }
}
